=== FILE: README.md ===
# url-list: lists of URLs behind a slug, in Dafny

A model of the persistence layer and the HTTP handlers of a small URL-list
service. A *list* has a database id, a public slug (`custom_url`, chosen by
the user or drawn from a 10-character generator), a creation stamp, and zero
or more *URLs*, each with an id, the URL text, an optional title and
description, and a position that orders the URLs of its list.

The store is an immutable value holding the two tables `url_lists` and
`urls`, with the id sequences and a clock. Each SQL statement is a pure
function on that value. Each exported function of `src/utils/url-list.ts` and
each handler of `src/pages/api/lists.ts` is a function from the inputs, the
store and a `fault` flag to a result and the store afterwards. The flag says
whether the database raised.

The joined rows of the two `LEFT JOIN` queries come out list by list, each
list's URLs in ascending position. A list without URLs gives one row with
NULL URL columns. The code that folds these rows into nested lists is modelled
on arbitrary rows, so its grouping promise holds for any row order. Under
the store invariant `Store.Valid` (unique slugs and ids, distinct creation
stamps, distinct positions within a list, every URL row pointing at a
stored list), the row layout is the one the
queries' `ORDER BY` clauses ask for.

Files:

- `js.dfy` (module `Js`): JavaScript truthiness, and `parseInt` as section
  19.2.5 of ECMA-262 defines it, with NaN written as `None`.
- `slug.dfy` (module `Slug`): the slug generator, as a function of a seed.
- `seqs.dfy` (module `Seqs`): `Filter` (SQL `WHERE`) and `SortBy` (SQL
  `ORDER BY`).
- `store.dfy` (module `Store`): the tables, the invariant, and the
  next-position query.
- `join.dfy` (module `Join`): the joined rows of the two `SELECT`s.
- `row_fold.dfy` (module `RowFold`): the row folding of `getList` and
  `getAllLists`.
- `persistence.dfy` (module `Persistence`): the seven exported functions and
  their properties.
- `api.dfy` (module `Api`): the five handlers and their status codes.

Three behaviours that are easy to misread:

- PATCH with an id no row has answers 200 with no body. `updateUrl` returns
  `undefined`, and the response is built from `JSON.stringify(undefined)`.
  It is not a 404.
- A failing insert, whether a slug that is already taken or a list id that
  does not exist, is a 500 like any other database failure.
- `deleteList` issues a `DELETE` on `url_lists` only. The schema is not
  part of this model. Assuming the default `NO ACTION` foreign key on
  `urls.list_id` (see "Left out"), deleting a list that has URLs is a 500
  and deletes nothing, and no URL row is ever left without its list. The
  same key makes an insert with an unknown list fail.

## Model

| member | source | states |
|---|---|---|
| `Slug.Nanoid` | src/utils/url-list.ts:4 | every generated slug has 10 characters, each a digit or a lower-case letter |
| `Slug.DrawsFromAlphabet` | src/utils/url-list.ts:4 | every drawn character is one of `1234567890abcdefghijklmnopqrstuvwxyz` |
| `Slug.EverySlugIsDrawn` | src/utils/url-list.ts:4 | every string of that shape is produced by some draw, so the generator is constrained by its contract only |
| `Persistence.SlugFor` | src/utils/url-list.ts:21 | a truthy `customUrl` is used as given; a missing or empty one yields a generated slug; the slug is never empty |
| `Persistence.CreateList` | src/utils/url-list.ts:20-27 | succeeds exactly when the database does not raise and the slug is not taken; on success the list carries that slug and no URLs, it is appended to `url_lists`, and `urls` is unchanged; on failure the store is unchanged |
| `Persistence.CreateKeepsValid` | src/utils/url-list.ts:22-25 | creating a list keeps the store invariant; the new list's id differs from every existing one, and its `created_at` is later than every existing list's |
| `Persistence.CreateThenGetAllLists` | src/utils/url-list.ts:83-85 | after a list is created, `getAllLists` reports it first, with no URLs, followed by exactly the lists it reported before, in the same order |
| `Persistence.GetListAfterCreate` | src/utils/url-list.ts:20-52 | a list just created is found by its slug, with its id and no URLs |
| `Persistence.CreateThenDeleteList` | src/utils/url-list.ts:20-81 | under the invariant, deleting the list just created succeeds, since no URL row points at it, and restores the table of lists |
| `Join.SelectList` | src/utils/url-list.ts:30-33 | the joined rows for a slug are empty exactly when no list has that slug; every row belongs to a stored list with that slug |
| `Join.SelectAll` | src/utils/url-list.ts:84-86 | every joined row belongs to a stored list, and every stored list gives at least one row |
| `Join.LeftJoin` | src/utils/url-list.ts:85 | the join of some lists has only rows of those lists, and at least one row for each of them |
| `Store.UrlsOfList` | src/utils/url-list.ts:31 | a list's URL rows are exactly the rows of `urls` with that list id, in ascending position |
| `Store.UrlsOfListStrictlySorted` | src/utils/url-list.ts:31 | under the invariant, a list's URLs have strictly ascending positions |
| `RowFold.FoldList` | src/utils/url-list.ts:35-51 | `getList`'s fold gives null exactly when there are no rows |
| `RowFold.EntriesAreTruthyUrls` | src/utils/url-list.ts:37-45 | the URLs taken from the rows are exactly those of rows with a truthy `url_id`; none has id 0 |
| `RowFold.EntriesOfBlock` | src/utils/url-list.ts:37-45 | the padding row of a list without URLs adds no URL, and the URL rows of one list give their URLs in order |
| `Persistence.GetList` | src/utils/url-list.ts:29-52 | fails only when the database raises; returns null exactly when no list has the slug; a list found carries that slug; the store is unchanged |
| `Persistence.GetListIsView` | src/utils/url-list.ts:29-51 | for a stored list, `getList` returns its id and slug with its URLs in ascending position; a list without URLs comes back with empty `urls`, not null |
| `Persistence.ViewEntries` | src/utils/url-list.ts:31-45 | the URLs of a list's view are exactly the entries of the `urls` rows with that list id |
| `Persistence.ViewUrls` | src/utils/url-list.ts:31-45 | the URLs `getList` returns are exactly the list's URL rows, with strictly ascending positions |
| `RowFold.StepKeepsGrouping` | src/utils/url-list.ts:90-108 | one iteration of the `listMap` loop keeps the grouping promise for the rows seen so far |
| `RowFold.GroupLists` | src/utils/url-list.ts:88-110 | for any rows: list ids are distinct, every id of the rows has a list, lists come in order of first appearance, each takes its slug from its first row, and each holds exactly the URLs of its rows with a truthy `url_id`, in row order |
| `RowFold.RowWithoutUrlAddsNothing` | src/utils/url-list.ts:99-107 | a row without `url_id` for a list already seen leaves the grouped output unchanged |
| `RowFold.FoldBlock` | src/utils/url-list.ts:88-110 | the rows of one new list append that list with all its URLs in order; for a list without URLs that is an empty `urls` |
| `Persistence.GetAllLists` | src/utils/url-list.ts:83-111 | fails only when the database raises; otherwise the output is a grouping of the joined rows; the store is unchanged |
| `Persistence.NewestFirstDistinct` | src/utils/url-list.ts:85 | under the invariant, the lists in `ORDER BY created_at DESC` order have distinct ids and strictly decreasing creation stamps, and they are exactly the stored lists |
| `Persistence.GetAllListsAreViews` | src/utils/url-list.ts:83-111 | `getAllLists` returns every stored list exactly once, newest first, each with its URLs in ascending position |
| `Persistence.GetAllListsAgreesWithGetList` | src/utils/url-list.ts:29-111 | every list `getAllLists` reports is the list `getList` returns for its slug |
| `Store.NextPosition` | src/utils/url-list.ts:55-58 | the next position is 0 for a list without URLs, otherwise one more than the largest position, so it is above every position in the list |
| `Persistence.AddUrlToList` | src/utils/url-list.ts:54-65 | succeeds exactly when the database does not raise and the list exists; the new row has the given list id and URL, no title or description, and the position `COALESCE(MAX(position), -1) + 1` of its list (`Store.NextPosition`), which is above all of its list's; exactly this row is appended, and the lists are unchanged; on failure the store is unchanged |
| `Persistence.AddUrlKeepsValid` | src/utils/url-list.ts:60-63 | adding a URL keeps the store invariant, and the new URL's id differs from every existing one |
| `Persistence.AddUrlAppendsEntry` | src/utils/url-list.ts:54-64 | after an add, the list's URLs are the old ones followed by the new one; every other list is unchanged |
| `Persistence.AddThenGetList` | src/utils/url-list.ts:29-65 | adding a URL to a stored list succeeds, and `getList` then returns the list's earlier URLs followed by the new one |
| `Persistence.AddUrlAdvancesPosition` | src/utils/url-list.ts:55-58 | after an add, the list's next position is one past the new URL's position |
| `Persistence.AddThenDeleteUrl` | src/utils/url-list.ts:54-77 | deleting the URL just added restores the table of URLs |
| `Persistence.FirstUrl` | src/utils/url-list.ts:72 | `rows[0]` of the update is absent exactly when no row has the id; otherwise it is a row with that id |
| `Persistence.UpdateUrl` | src/utils/url-list.ts:67-73 | fails only when the database raises; returns no row exactly when no row has the id, and the store is then unchanged; a returned row is stored, and it is a row that had the id, with the new URL and every other column except `updated_at` kept; the lists are unchanged |
| `Persistence.RewriteAll` | src/utils/url-list.ts:69 | every row keeps its id, list, title, description and position; rows with the id take the new URL, and rows with other ids are untouched |
| `Persistence.UpdateUrlChangesOnlyUrl` | src/utils/url-list.ts:69 | the update changes only `url` and `updated_at` of rows with the id; id, list, title, description and position stay, and other rows are untouched |
| `Persistence.UpdateKeepsValid` | src/utils/url-list.ts:67-73 | updating a URL keeps the store invariant |
| `Persistence.DeleteUrl` | src/utils/url-list.ts:75-77 | removes exactly the rows with that id and leaves the lists unchanged |
| `Persistence.DeleteUrlAbsent` | src/utils/url-list.ts:75-77 | deleting an id no row has leaves the store unchanged |
| `Persistence.DeleteUrlIdempotent` | src/utils/url-list.ts:75-77 | deleting a URL twice is the same as deleting it once |
| `Persistence.DeleteUrlKeepsValid` | src/utils/url-list.ts:75-77 | deleting a URL keeps the store invariant |
| `Persistence.DeleteList` | src/utils/url-list.ts:79-81 | fails with a foreign-key violation exactly when URL rows point at a list with the slug, and then changes nothing; otherwise removes exactly the list rows with that slug; `urls` is never touched |
| `Persistence.DeleteListLeavesNoOrphans` | src/utils/url-list.ts:79-81 | every URL row whose list existed before `deleteList` still has its list afterwards |
| `Persistence.DeleteListAbsent` | src/utils/url-list.ts:79-81 | deleting a slug no list has leaves the store unchanged |
| `Persistence.DeleteListIdempotent` | src/utils/url-list.ts:79-81 | deleting a list twice is the same as deleting it once |
| `Persistence.DeleteListKeepsValid` | src/utils/url-list.ts:79-81 | deleting a list keeps the store invariant |
| `Persistence.GetListAfterDeleteList` | src/utils/url-list.ts:29-81 | after a successful delete of a slug, `getList` of it returns null; after a refused one it returns what it returned before |
| `Js.DecimalRoundTrip` | src/pages/api/lists.ts:61 | `parseInt` reads back the decimal numeral of a number, whatever non-alphanumeric text follows |
| `Js.NegativeDecimalRoundTrip` | src/pages/api/lists.ts:61 | `parseInt` reads back a negative decimal numeral |
| `Js.NoDigitIsNaN` | src/pages/api/lists.ts:61 | a parameter with no digit after white space and sign parses to NaN |
| `Api.Get` | src/pages/api/lists.ts:4-20 | 500 exactly when the database raises; 404 `List not found` exactly when a truthy `id` names no list; 200 with that list for a truthy `id`, otherwise 200 with a grouping of all lists; the store is unchanged |
| `Api.GetReturnsView` | src/pages/api/lists.ts:6-12 | GET with a stored slug answers 200 with that list's id, slug and URLs in position order |
| `Api.GetAllReturnsViews` | src/pages/api/lists.ts:15-16 | GET with an absent or empty `id` answers 200 with every list exactly once, newest first |
| `Api.Post` | src/pages/api/lists.ts:22-31 | 201 exactly when the body is readable, the database does not raise and the slug is free, with the created list carrying that slug and no URLs, and the store afterwards is the one `createList` leaves; every other case is the 500 response with the store unchanged |
| `Api.PostThenGet` | src/pages/api/lists.ts:22-31 | a list created by POST is then returned by GET of its slug, with no URLs |
| `Api.PostKeepsValid` | src/pages/api/lists.ts:22-31 | POST keeps the store invariant |
| `Api.Put` | src/pages/api/lists.ts:33-42 | 200 exactly when the body is readable, the database does not raise and the list exists, with the new URL row, which is appended to the table, and the store afterwards is the one `addUrlToList` leaves; otherwise the 500 response with the store unchanged |
| `Api.PutThenGet` | src/pages/api/lists.ts:33-42 | a URL added by PUT appears last in its list on the next GET |
| `Api.PutKeepsValid` | src/pages/api/lists.ts:33-42 | PUT keeps the store invariant |
| `Api.Patch` | src/pages/api/lists.ts:44-53 | 200 exactly when the body is readable and the database does not raise; the body is empty exactly when no row has the id, and the store is then unchanged; otherwise the body is the row `updateUrl` returns, which is stored and keeps the list id, title, description and position of the row that had the id; after any 200 the store is the one `updateUrl` leaves |
| `Api.PatchKeepsValid` | src/pages/api/lists.ts:44-53 | PATCH keeps the store invariant |
| `Api.Delete` | src/pages/api/lists.ts:55-74 | 400 `Missing urlId or listId parameter` exactly when neither parameter is truthy, with the store unchanged; 204 exactly when the database does not raise and either a truthy `urlId` parses, or only `listId` is truthy and no URL row points at its list; a 204 for `urlId` leaves the store `deleteUrl(parseInt(urlId))` leaves, and one for `listId` the store `deleteList(listId)` leaves; a truthy `urlId` never touches the lists, so it takes precedence over `listId`; otherwise the 500 response |
| `Api.DeleteByDecimalId` | src/pages/api/lists.ts:57-63 | DELETE with the decimal numeral of a URL id deletes that URL and answers 204, whatever `listId` says |
| `Api.DeleteThenGet` | src/pages/api/lists.ts:65-68 | a list deleted by DELETE with `listId` is then a 404 on GET; a refused DELETE leaves GET's answer as it was |
| `Api.DeleteListWithUrls` | src/pages/api/lists.ts:65-73 | DELETE with the slug of a list that still has URL rows is the 500 response with the store unchanged |
| `Api.DeleteKeepsValid` | src/pages/api/lists.ts:55-74 | DELETE keeps the store invariant |
| `Api.FaultIsInternalError` | src/pages/api/lists.ts:17-19 | in every handler that reaches the database (for DELETE, when `urlId` or `listId` is truthy), a database failure gives 500 `Internal server error` with the store unchanged (lines 28-30, 39-41, 50-52 and 71-73 are the same `catch`) |

## Left out

- `src/utils/db.ts` and `src/utils/init-db.ts` are not part of this model. They are the connection pool, logging and schema loading. `query` appears only through the statement functions and the `fault` flag.
- The React components are not part of this model. They are presentation.
- Randomness: the generator's draw is a `seed` parameter. Collision probabilities are not modelled, and a collision is the unique-slug failure.
- Timestamps: `created_at` and `updated_at` are stamps from a counter in the store, so two lists never share a creation stamp. `CURRENT_TIMESTAMP` can tie, and under `ORDER BY l.created_at DESC, u.position` a tie may interleave the rows of two lists; the invariant excludes such ties.
- The read-then-insert race in `addUrlToList`: calls run one after another.
- JSON field types: bodies are modelled as well-typed (`listId` and `urlId` integers, URLs strings). A missing or ill-typed field is not modelled. A body that cannot be read or destructured is.
- The id sequences: a failed insert leaves them untouched. PostgreSQL would consume a value, which only affects which fresh id comes next.
- Column range checks: an id parameter too large for the id column raises in the database. This is not modelled.
- A `urlId` that parses to NaN: node-postgres sends it as the string `'NaN'`, and PostgreSQL rejects that for an integer column. The model assumes this rejection and answers 500; the database itself is not modelled.
- `parseInt` precision: the model reads digits as exact integers. JavaScript loses precision beyond 2^53, where no id of the table can lie.
- Cascade on list deletion: the schema is not part of this model. The foreign key is taken to be the default `NO ACTION` one, which refuses to delete a list that URL rows point at. An `ON DELETE CASCADE` schema would instead delete those URL rows, and the model does not cover it.
- Postgres NULL ordering: the model places each list's padding row alone in its block, which is the only case where a NULL position appears.
- `Persistence.GetList`: the function's own contract gives only null-ness and the slug. The full content is stated by `Persistence.GetListIsView`, under the store invariant.

=== FILE: api.dfy ===
/** The handlers of src/pages/api/lists.ts as a pure mapping from a request
    and the store to a response and the store afterwards.

    Query parameters are `Option<string>` (None when absent), a request body
    is None when `request.json()` throws or the JSON is `null` (so that
    destructuring it throws), and `fault` says whether the database raises. */
module Api {
  import opened Js
  import opened Store
  import opened Join
  import opened RowFold
  import opened Persistence

  const NotFoundMessage: string := "List not found"
  const InternalMessage: string := "Internal server error"
  const MissingMessage: string := "Missing urlId or listId parameter"

  /** What `JSON.stringify` is applied to, or no body at all. */
  datatype Body =
    | NoBody
    | ErrorBody(error: string)
    | ListBody(list: UrlList)
    | ListsBody(lists: seq<UrlList>)
    | CreatedBody(created: CreatedList)
    | UrlBody(url: UrlRow)

  datatype Response = Response(status: int, body: Body)

  /** A handled request: the response and the store afterwards. */
  datatype Exchange = Exchange(response: Response, db: Db)

  /** The `catch` branch every handler shares. */
  function InternalError(db: Db): Exchange
  {
    Exchange(Response(500, ErrorBody(InternalMessage)), db)
  }

  /** The handler's view of `{ customUrl } = body`. */
  datatype PostBody = PostBody(customUrl: Option<string>)

  /** `{ listId, url } = body`. */
  datatype PutBody = PutBody(listId: int, url: string)

  /** `{ urlId, newUrl } = body`. */
  datatype PatchBody = PatchBody(urlId: int, newUrl: string)

  /** GET (src/pages/api/lists.ts:4-20): the list of a truthy `id`, or 404;
      all lists when `id` is absent or empty. */
  function Get(db: Db, id: Option<string>, fault: bool): (x: Exchange)
    ensures x.db == db
    ensures x.response.status in {200, 404, 500}
    ensures x.response.status == 500 <==> fault
    ensures x.response.status == 404 <==> !fault && TruthyString(id) && !HasSlug(db, id.value)
    ensures x.response.status == 404 ==> x.response.body == ErrorBody(NotFoundMessage)
    ensures x.response.status == 200 && TruthyString(id) ==>
      x.response.body.ListBody? && x.response.body.list.customUrl == id.value
    ensures x.response.status == 200 && !TruthyString(id) ==>
      x.response.body.ListsBody? && IsGrouping(SelectAll(db), x.response.body.lists)
  {
    if TruthyString(id) then
      var r := GetList(db, id.value, fault);
      match r.result
      case Err(_) => InternalError(db)
      case Ok(None) => Exchange(Response(404, ErrorBody(NotFoundMessage)), db)
      case Ok(Some(l)) => Exchange(Response(200, ListBody(l)), db)
    else
      var r := GetAllLists(db, fault);
      match r.result
      case Err(_) => InternalError(db)
      case Ok(ls) => Exchange(Response(200, ListsBody(ls)), db)
  }

  /** POST (src/pages/api/lists.ts:22-31): create a list, 201 with it. */
  function Post(db: Db, body: Option<PostBody>, seed: nat, fault: bool): (x: Exchange)
    ensures x.response.status in {201, 500}
    ensures x.response.status == 201 <==>
      body.Some? && !fault && !HasSlug(db, SlugFor(body.value.customUrl, seed))
    ensures x.response.status == 201 ==>
      && x.response.body.CreatedBody?
      && x.response.body.created.list.customUrl == SlugFor(body.value.customUrl, seed)
      && x.response.body.created.urls == []
    ensures x.response.status == 201 ==> x.db == CreateList(db, body.value.customUrl, seed, false).db
    ensures x.response.status == 500 ==> x == InternalError(db)
  {
    match body
    case None => InternalError(db)
    case Some(b) =>
      var r := CreateList(db, b.customUrl, seed, fault);
      match r.result
      case Err(_) => InternalError(db)
      case Ok(c) => Exchange(Response(201, CreatedBody(c)), r.db)
  }

  /** PUT (src/pages/api/lists.ts:33-42): add a URL to a list, 200 with it. */
  function Put(db: Db, body: Option<PutBody>, fault: bool): (x: Exchange)
    ensures x.response.status in {200, 500}
    ensures x.response.status == 200 <==> body.Some? && !fault && HasList(db, body.value.listId)
    ensures x.response.status == 200 ==>
      && x.response.body.UrlBody?
      && x.response.body.url.listId == body.value.listId
      && x.response.body.url.url == body.value.url
      && x.db.urls == db.urls + [x.response.body.url]
    ensures x.response.status == 200 ==> x.db == AddUrlToList(db, body.value.listId, body.value.url, false).db
    ensures x.response.status == 500 ==> x == InternalError(db)
  {
    match body
    case None => InternalError(db)
    case Some(b) =>
      var r := AddUrlToList(db, b.listId, b.url, fault);
      match r.result
      case Err(_) => InternalError(db)
      case Ok(u) => Exchange(Response(200, UrlBody(u)), r.db)
  }

  /** PATCH (src/pages/api/lists.ts:44-53): rewrite a URL, 200 with the row.
      An id no row has gives `updated === undefined`, and `new
      Response(JSON.stringify(undefined))` is a 200 with no body. */
  function Patch(db: Db, body: Option<PatchBody>, fault: bool): (x: Exchange)
    ensures x.response.status in {200, 500}
    ensures x.response.status == 200 <==> body.Some? && !fault
    ensures x.response.status == 200 ==>
      (x.response.body == NoBody <==> forall i :: 0 <= i < |db.urls| ==> db.urls[i].id != body.value.urlId)
    ensures x.response.status == 200 && x.response.body.UrlBody? ==>
      x.response.body.url.id == body.value.urlId && x.response.body.url.url == body.value.newUrl
    ensures x.response.status == 200 && x.response.body.UrlBody? ==>
      && UpdateUrl(db, body.value.urlId, body.value.newUrl, false).result == Ok(Some(x.response.body.url))
      && x.response.body.url in x.db.urls
    ensures x.response.body == NoBody ==> x.db == db
    ensures x.response.status == 200 ==> x.db == UpdateUrl(db, body.value.urlId, body.value.newUrl, false).db
    ensures x.response.status == 500 ==> x == InternalError(db)
  {
    match body
    case None => InternalError(db)
    case Some(b) =>
      var r := UpdateUrl(db, b.urlId, b.newUrl, fault);
      match r.result
      case Err(_) => InternalError(db)
      case Ok(None) => Exchange(Response(200, NoBody), r.db)
      case Ok(Some(u)) => Exchange(Response(200, UrlBody(u)), r.db)
  }

  /** DELETE (src/pages/api/lists.ts:55-74): a truthy `urlId` deletes that
      URL (`parseInt(urlId)`; NaN makes the statement raise), otherwise a
      truthy `listId` deletes the list with that slug (refused while URL rows
      point at it); neither is a 400. */
  function Delete(db: Db, urlId: Option<string>, listId: Option<string>, fault: bool): (x: Exchange)
    ensures x.response.status in {204, 400, 500}
    ensures x.response.status == 400 <==> !TruthyString(urlId) && !TruthyString(listId)
    ensures x.response.status == 400 ==> x.db == db && x.response.body == ErrorBody(MissingMessage)
    ensures x.response.status == 204 <==>
      && !fault
      && ((TruthyString(urlId) && ParseInt(urlId.value).Some?) ||
          (!TruthyString(urlId) && TruthyString(listId) && !Referenced(db, listId.value)))
    ensures x.response.status == 204 ==> x.response.body == NoBody
    ensures x.response.status == 204 && TruthyString(urlId) ==>
      x.db == DeleteUrl(db, ParseInt(urlId.value).value, false).db
    ensures x.response.status == 204 && !TruthyString(urlId) ==>
      x.db == DeleteList(db, listId.value, false).db
    ensures x.response.status == 500 ==> x == InternalError(db)
    ensures TruthyString(urlId) ==> x.db.lists == db.lists
    ensures !TruthyString(urlId) ==> x.db.urls == db.urls
  {
    if TruthyString(urlId) then
      match ParseInt(urlId.value)
      case None => InternalError(db)
      case Some(n) =>
        var r := DeleteUrl(db, n, fault);
        if r.result.Err? then InternalError(db) else Exchange(Response(204, NoBody), r.db)
    else if TruthyString(listId) then
      var r := DeleteList(db, listId.value, fault);
      if r.result.Err? then InternalError(db) else Exchange(Response(204, NoBody), r.db)
    else
      Exchange(Response(400, ErrorBody(MissingMessage)), db)
  }

  // ---------------------------------------------------------------------
  // Properties across handlers
  // ---------------------------------------------------------------------

  /** Whenever a handler reaches the database and the database raises, the
      response is 500 `{error: 'Internal server error'}` and the store is
      unchanged. */
  lemma FaultIsInternalError(db: Db, id: Option<string>, post: Option<PostBody>, seed: nat,
                             put: Option<PutBody>, patch: Option<PatchBody>,
                             urlId: Option<string>, listId: Option<string>)
    ensures Get(db, id, true) == InternalError(db)
    ensures Post(db, post, seed, true) == InternalError(db)
    ensures Put(db, put, true) == InternalError(db)
    ensures Patch(db, patch, true) == InternalError(db)
    ensures TruthyString(urlId) || TruthyString(listId) ==> Delete(db, urlId, listId, true) == InternalError(db)
  {
  }

  /** POST keeps the store invariant (GET never changes the store). */
  lemma PostKeepsValid(db: Db, body: Option<PostBody>, seed: nat, fault: bool)
    requires Valid(db)
    ensures Valid(Post(db, body, seed, fault).db)
  {
    if body.Some? && !fault {
      CreateKeepsValid(db, body.value.customUrl, seed);
    }
  }

  /** PUT keeps the store invariant. */
  lemma PutKeepsValid(db: Db, body: Option<PutBody>, fault: bool)
    requires Valid(db)
    ensures Valid(Put(db, body, fault).db)
  {
    if body.Some? && !fault {
      AddUrlKeepsValid(db, body.value.listId, body.value.url);
    }
  }

  /** PATCH keeps the store invariant. */
  lemma PatchKeepsValid(db: Db, body: Option<PatchBody>, fault: bool)
    requires Valid(db)
    ensures Valid(Patch(db, body, fault).db)
  {
    if body.Some? && !fault {
      UpdateKeepsValid(db, body.value.urlId, body.value.newUrl);
    }
  }

  /** DELETE keeps the store invariant. */
  lemma DeleteKeepsValid(db: Db, urlId: Option<string>, listId: Option<string>, fault: bool)
    requires Valid(db)
    ensures Valid(Delete(db, urlId, listId, fault).db)
  {
    if !fault {
      if TruthyString(urlId) {
        if ParseInt(urlId.value).Some? {
          DeleteUrlKeepsValid(db, ParseInt(urlId.value).value);
        }
      } else if TruthyString(listId) {
        DeleteListKeepsValid(db, listId.value);
      }
    }
  }

  /** GET with the slug of a stored list returns that list's view. */
  lemma GetReturnsView(db: Db, l: ListRow)
    requires Valid(db)
    requires l in db.lists && l.customUrl != ""
    ensures Get(db, Some(l.customUrl), false) == Exchange(Response(200, ListBody(View(db, l))), db)
  {
    GetListIsView(db, l);
  }

  /** GET without `id` returns the views of all lists, newest first. */
  lemma GetAllReturnsViews(db: Db, id: Option<string>)
    requires Valid(db)
    requires !TruthyString(id)
    ensures Get(db, id, false) == Exchange(Response(200, ListsBody(Views(db, NewestFirstLists(db)))), db)
  {
    GetAllListsAreViews(db);
  }

  /** A list created by POST is then found by GET under its slug, empty. */
  lemma PostThenGet(db: Db, body: PostBody, seed: nat)
    requires Valid(db)
    requires Post(db, Some(body), seed, false).response.status == 201
    ensures var x := Post(db, Some(body), seed, false);
      var c := x.response.body.created;
      Get(x.db, Some(c.list.customUrl), false).response ==
        Response(200, ListBody(UrlList(c.list.id, c.list.customUrl, [])))
  {
    GetListAfterCreate(db, body.customUrl, seed);
  }

  /** A URL added by PUT shows up last in its list on the next GET. */
  lemma PutThenGet(db: Db, body: PutBody, l: ListRow)
    requires Valid(db)
    requires l in db.lists && l.id == body.listId && l.customUrl != ""
    ensures Put(db, Some(body), false).response.status == 200
    ensures var x := Put(db, Some(body), false);
      Get(x.db, Some(l.customUrl), false).response ==
        Response(200, ListBody(UrlList(l.id, l.customUrl, View(db, l).urls + [EntryOf(x.response.body.url)])))
  {
    AddThenGetList(db, body.url, l);
  }

  /** DELETE with the decimal numeral of a URL id deletes that URL, whatever
      `listId` says. */
  lemma DeleteByDecimalId(db: Db, n: nat, listId: Option<string>)
    ensures Delete(db, Some(Decimal(n)), listId, false) == Exchange(Response(204, NoBody), DeleteUrl(db, n, false).db)
  {
    DecimalRoundTrip(n, []);
    assert Decimal(n) + [] == Decimal(n);
  }

  /** A list deleted by DELETE is then not found by GET; a DELETE the
      foreign key refuses leaves GET answering as before. */
  lemma DeleteThenGet(db: Db, customUrl: string)
    requires customUrl != ""
    ensures var x := Delete(db, None, Some(customUrl), false);
      x.response.status == 204 ==>
        Get(x.db, Some(customUrl), false).response == Response(404, ErrorBody(NotFoundMessage))
    ensures var x := Delete(db, None, Some(customUrl), false);
      x.response.status == 500 ==> Get(x.db, Some(customUrl), false) == Get(db, Some(customUrl), false)
  {
    GetListAfterDeleteList(db, customUrl);
  }

  /** DELETE of a list that still has URL rows answers 500 and deletes
      nothing. */
  lemma DeleteListWithUrls(db: Db, l: ListRow, u: UrlRow)
    requires l in db.lists && l.customUrl != ""
    requires u in db.urls && u.listId == l.id
    ensures Delete(db, None, Some(l.customUrl), false) == InternalError(db)
  {
    var i :| 0 <= i < |db.lists| && db.lists[i] == l;
    var j :| 0 <= j < |db.urls| && db.urls[j] == u;
    assert Referenced(db, l.customUrl);
  }
}

=== FILE: join.dfy ===
/** The result sets of the two `SELECT … FROM url_lists l LEFT JOIN urls u
    ON l.id = u.list_id` statements (src/utils/url-list.ts:31 and :85).

    Rows are laid out list by list, each list's URLs in ascending position,
    and a list without URLs contributes one row whose URL columns are NULL.
    When slugs are unique and creation stamps distinct (`Store.Valid`) this is
    exactly the order the statements' `ORDER BY` clauses demand. */
module Join {
  import opened Js
  import opened Seqs
  import opened Store

  /** A URL as the url-list code hands it out (`interface URL`). */
  datatype UrlEntry = UrlEntry(
    id: int,
    url: string,
    title: Option<string>,
    description: Option<string>,
    position: int)

  /** One joined row: the list columns `l.*`, and `u.id as url_id, u.url,
      u.title, u.description, u.position`, all NULL (None) when the list has
      no URL. */
  datatype JoinRow = JoinRow(list: ListRow, url: Option<UrlEntry>)

  function EntryOf(u: UrlRow): UrlEntry
  {
    UrlEntry(u.id, u.url, u.title, u.description, u.position)
  }

  /** The entries of some URL rows, in the same order. */
  function EntriesOf(us: seq<UrlRow>): (r: seq<UrlEntry>)
    ensures |r| == |us|
  {
    seq(|us|, i requires 0 <= i < |us| => EntryOf(us[i]))
  }

  lemma EntriesOfAppend(us: seq<UrlRow>, u: UrlRow)
    ensures EntriesOf(us + [u]) == EntriesOf(us) + [EntryOf(u)]
  {
  }

  /** The rows one list contributes to the join, given its URLs in order. */
  function Block(l: ListRow, us: seq<UrlRow>): (r: seq<JoinRow>)
    ensures |r| >= 1
    ensures forall i :: 0 <= i < |r| ==> r[i].list == l
  {
    if us == [] then [JoinRow(l, None)]
    else seq(|us|, i requires 0 <= i < |us| => JoinRow(l, Some(EntryOf(us[i]))))
  }

  /** The joined rows of the lists `ls`, in the order of `ls`. */
  function LeftJoin(db: Db, ls: seq<ListRow>): (r: seq<JoinRow>)
    ensures |r| >= |ls|
    ensures forall i :: 0 <= i < |r| ==> r[i].list in ls
    ensures forall l :: l in ls ==> exists i :: 0 <= i < |r| && r[i].list == l
  {
    if ls == [] then []
    else
      var p := ls[..|ls| - 1];
      var l := ls[|ls| - 1];
      var a := LeftJoin(db, p);
      var b := Block(l, UrlsOfList(db, l.id));
      assert (a + b)[|a|].list == l;
      assert forall i :: 0 <= i < |a| ==> (a + b)[i] == a[i];
      assert forall m :: m in ls ==> m in p || m == l;
      a + b
  }

  /** `… WHERE l.custom_url = $1 ORDER BY u.position` (src/utils/url-list.ts:31):
      no rows exactly when no list carries the slug, and only rows of lists
      that carry it. */
  function SelectList(db: Db, customUrl: string): (r: seq<JoinRow>)
    ensures r == [] <==> !HasSlug(db, customUrl)
    ensures forall i :: 0 <= i < |r| ==> r[i].list.customUrl == customUrl && r[i].list in db.lists
  {
    var ls := Filter(db.lists, Named(customUrl));
    FilterIndices(db.lists, Named(customUrl));
    LeftJoin(db, ls)
  }

  /** `… ORDER BY l.created_at DESC, u.position` (src/utils/url-list.ts:85):
      every joined row belongs to a list of the table, and every list of the
      table gives at least one row. */
  function SelectAll(db: Db): (r: seq<JoinRow>)
    ensures |r| >= |db.lists|
    ensures forall i :: 0 <= i < |r| ==> r[i].list in db.lists
    ensures forall l :: l in db.lists ==> exists i :: 0 <= i < |r| && r[i].list == l
  {
    LeftJoin(db, SortBy(db.lists, NewestFirst))
  }
}

=== FILE: js.dfy ===
/** JavaScript value semantics that the url-list code leans on:
    nullable values, truthiness of strings and numbers, and the global
    `parseInt` applied to a query-string parameter. */
module Js {

  /** A value that may be JavaScript `null`/`undefined`. */
  datatype Option<+T> = None | Some(value: T)

  /** `if (s)` on a string or null: null and the empty string are falsy. */
  predicate TruthyString(s: Option<string>)
  {
    s.Some? && s.value != ""
  }

  /** `if (n)` on a number or null: null and 0 are falsy (NaN is never stored). */
  predicate TruthyNumber(n: Option<int>)
  {
    n.Some? && n.value != 0
  }

  // ---------------------------------------------------------------------
  // parseInt(string) with the radix left undefined (ECMAScript 19.2.5)
  // ---------------------------------------------------------------------

  /** The code points `parseInt` skips at the start: WhiteSpace and LineTerminator. */
  predicate IsSpace(c: char)
  {
    c == '\t' || c == '\n' || c == '\U{000B}' || c == '\U{000C}' || c == '\r' || c == ' '
    || c == '\U{00A0}' || c == '\U{1680}' || ('\U{2000}' <= c <= '\U{200A}')
    || c == '\U{2028}' || c == '\U{2029}' || c == '\U{202F}' || c == '\U{205F}'
    || c == '\U{3000}' || c == '\U{FEFF}'
  }

  /** The input with its leading white space removed. */
  function TrimStart(s: string): (r: string)
    ensures |r| <= |s| && r == s[|s| - |r|..]
    ensures forall i :: 0 <= i < |s| - |r| ==> IsSpace(s[i])
    ensures r == [] || !IsSpace(r[0])
  {
    if s == [] || !IsSpace(s[0]) then s else TrimStart(s[1..])
  }

  /** The value of `c` as a digit in radix 36, or 36 when it is not one. */
  function DigitValue(c: char): (v: nat)
    ensures v <= 36
  {
    if '0' <= c <= '9' then (c - '0') as nat
    else if 'a' <= c <= 'z' then (c - 'a') as nat + 10
    else if 'A' <= c <= 'Z' then (c - 'A') as nat + 10
    else 36
  }

  predicate IsDigit(c: char, radix: nat)
  {
    DigitValue(c) < radix
  }

  /** Length of the longest prefix of `s` made of radix digits. */
  function DigitRun(s: string, radix: nat): (n: nat)
    ensures n <= |s|
    ensures forall i :: 0 <= i < n ==> IsDigit(s[i], radix)
    ensures n == |s| || !IsDigit(s[n], radix)
  {
    if s != [] && IsDigit(s[0], radix) then 1 + DigitRun(s[1..], radix) else 0
  }

  /** The number a run of digits denotes, most significant digit first. */
  function DigitsValue(d: string, radix: nat): nat
  {
    if d == [] then 0
    else DigitsValue(d[..|d| - 1], radix) * radix + DigitValue(d[|d| - 1])
  }

  /** `parseInt(s)`: None stands for NaN. Leading white space is skipped and
      one sign is accepted before the magnitude is read. */
  function ParseInt(s: string): Option<int>
  {
    ParseSigned(TrimStart(s))
  }

  /** One optional sign, then the magnitude. */
  function ParseSigned(t: string): Option<int>
  {
    if t != [] && t[0] == '-' then
      match ParseMagnitude(t[1..])
      case None => None
      case Some(v) => Some(-v)
    else if t != [] && t[0] == '+' then ParseMagnitude(t[1..])
    else ParseMagnitude(t)
  }

  /** A `0x`/`0X` prefix switches to radix 16; otherwise the radix is 10. */
  function ParseMagnitude(u: string): Option<int>
  {
    if |u| >= 2 && u[0] == '0' && (u[1] == 'x' || u[1] == 'X') then ReadDigits(u[2..], 16)
    else ReadDigits(u, 10)
  }

  /** The longest run of digits at the start is read; anything after it is
      ignored, and an empty run is NaN. */
  function ReadDigits(body: string, radix: nat): (r: Option<int>)
    ensures r.Some? ==> r.value >= 0
  {
    var n := DigitRun(body, radix);
    if n == 0 then None else Some(DigitsValue(body[..n], radix))
  }

  /** The decimal numeral of `n`, as `String(n)` writes it. */
  function Decimal(n: nat): (s: string)
    ensures |s| >= 1
    ensures forall i :: 0 <= i < |s| ==> '0' <= s[i] <= '9'
    ensures |s| >= 2 ==> s[0] != '0'
  {
    if n < 10 then ['0' + n as char]
    else Decimal(n / 10) + ['0' + (n % 10) as char]
  }

  lemma {:induction false} DecimalDigits(n: nat)
    ensures DigitRun(Decimal(n), 10) == |Decimal(n)|
    ensures DigitsValue(Decimal(n), 10) == n
  {
    var s := Decimal(n);
    if n >= 10 {
      DecimalDigits(n / 10);
      assert s[..|s| - 1] == Decimal(n / 10);
    }
  }

  /** A run of digits followed by a non-digit is read exactly. */
  lemma {:induction false} DigitRunOfPrefix(d: string, rest: string, radix: nat)
    requires DigitRun(d, radix) == |d|
    requires rest == [] || !IsDigit(rest[0], radix)
    ensures DigitRun(d + rest, radix) == |d|
    ensures (d + rest)[..|d|] == d
  {
    if d != [] {
      assert (d + rest)[1..] == d[1..] + rest;
      DigitRunOfPrefix(d[1..], rest, radix);
    }
  }

  /** What `parseInt` reads from a string that starts with a decimal digit. */
  lemma DigitFirstIsMagnitude(s: string)
    requires s != [] && '0' <= s[0] <= '9'
    ensures ParseInt(s) == ParseMagnitude(s)
  {
    assert !IsSpace(s[0]);
    assert TrimStart(s) == s;
    assert ParseSigned(s) == ParseMagnitude(s);
  }

  /** `parseInt(String(n) + rest)` reads `n` back when `rest` does not start
      with a letter or a digit. */
  lemma DecimalRoundTrip(n: nat, rest: string)
    requires rest == [] || !IsDigit(rest[0], 36)
    ensures ParseInt(Decimal(n) + rest) == Some(n)
    ensures ParseMagnitude(Decimal(n) + rest) == Some(n)
  {
    var d := Decimal(n);
    var s := d + rest;
    DecimalDigits(n);
    DigitRunOfPrefix(d, rest, 10);
    assert s[0] == d[0];
    DigitFirstIsMagnitude(s);
    if |d| >= 2 {
      assert s[0] != '0';
    } else if |s| >= 2 {
      assert s[1] == rest[0];
    }
    assert ParseMagnitude(s) == ReadDigits(s, 10);
  }

  /** A leading minus sign negates the value read. */
  lemma NegativeDecimalRoundTrip(n: nat, rest: string)
    requires rest == [] || !IsDigit(rest[0], 36)
    ensures ParseInt("-" + (Decimal(n) + rest)) == Some(-(n as int))
  {
    var t := Decimal(n) + rest;
    DecimalRoundTrip(n, rest);
    MinusNegates(t, n);
  }

  lemma MinusNegates(t: string, v: int)
    requires ParseMagnitude(t) == Some(v)
    ensures ParseInt("-" + t) == Some(-v)
  {
    var s := "-" + t;
    assert s[0] == '-' && s[1..] == t;
    assert !IsSpace(s[0]);
    assert TrimStart(s) == s;
  }

  /** Leading white space never changes what `parseInt` reads. */
  lemma {:induction false} ParseIntSkipsSpace(ws: string, s: string)
    requires forall i :: 0 <= i < |ws| ==> IsSpace(ws[i])
    ensures ParseInt(ws + s) == ParseInt(s)
  {
    TrimStartSkipsSpace(ws, s);
    assert TrimStart(ws + s) == TrimStart(s);
  }

  lemma {:induction false} TrimStartSkipsSpace(ws: string, s: string)
    requires forall i :: 0 <= i < |ws| ==> IsSpace(ws[i])
    ensures TrimStart(ws + s) == TrimStart(s)
  {
    if ws == [] {
      assert ws + s == s;
    } else {
      assert (ws + s)[0] == ws[0];
      assert (ws + s)[1..] == ws[1..] + s;
      TrimStartSkipsSpace(ws[1..], s);
    }
  }

  /** A magnitude that does not start with a decimal digit is NaN; in
      particular it cannot start with the `0` of a `0x` prefix. */
  lemma MagnitudeNoDigit(u: string)
    requires u == [] || !IsDigit(u[0], 10)
    ensures ParseMagnitude(u) == None
  {
    if u != [] {
      assert u[0] != '0' by {
        assert IsDigit('0', 10);
      }
    }
  }

  /** A string that does not start (after white space and a sign) with a digit is NaN. */
  lemma NoDigitIsNaN(s: string)
    requires var t := TrimStart(s);
             var u := if t != [] && (t[0] == '-' || t[0] == '+') then t[1..] else t;
             u == [] || !IsDigit(u[0], 10)
    ensures ParseInt(s) == None
  {
    var t := TrimStart(s);
    if t != [] && (t[0] == '-' || t[0] == '+') {
      MagnitudeNoDigit(t[1..]);
    } else {
      MagnitudeNoDigit(t);
    }
  }
}

=== FILE: persistence.dfy ===
/** The exported functions of src/utils/url-list.ts over the store.

    Every call takes `fault`: whether the database raises for a reason the
    code cannot see (connection lost, query rejected). A raised statement
    yields `Err` and leaves the store as it was. */
module Persistence {
  import opened Js
  import opened Seqs
  import opened Slug
  import opened Store
  import opened Join
  import opened RowFold

  // ---------------------------------------------------------------------
  // createList (src/utils/url-list.ts:20-27)
  // ---------------------------------------------------------------------

  /** `{ ...result.rows[0], urls: [] }`: the inserted list row and its URLs. */
  datatype CreatedList = CreatedList(list: ListRow, urls: seq<UrlEntry>)

  /** `customUrl || nanoid()`: the supplied slug when it is truthy, otherwise
      a draw of the generator. */
  function SlugFor(customUrl: Option<string>, seed: nat): (slug: string)
    ensures TruthyString(customUrl) ==> slug == customUrl.value
    ensures !TruthyString(customUrl) ==> IsSlug(slug)
    ensures slug != ""
  {
    if TruthyString(customUrl) then customUrl.value else Nanoid(seed)
  }

  /** `INSERT INTO url_lists (custom_url) VALUES ($1) RETURNING *`, with the
      slug chosen by `SlugFor`. The insert fails on a slug already taken. */
  function CreateList(db: Db, customUrl: Option<string>, seed: nat, fault: bool): (r: Exec<CreatedList>)
    ensures r.result.Ok? <==> !fault && !HasSlug(db, SlugFor(customUrl, seed))
    ensures r.result.Err? ==> r.db == db
    ensures r.result.Ok? ==>
      var c := r.result.value;
      && c.list.customUrl == SlugFor(customUrl, seed)
      && c.urls == []
      && r.db.lists == db.lists + [c.list]
      && r.db.urls == db.urls
  {
    var slug := SlugFor(customUrl, seed);
    if fault then Exec(Err(QueryFailed), db)
    else if HasSlug(db, slug) then Exec(Err(UniqueViolation), db)
    else
      var row := ListRow(db.nextListId, slug, db.clock);
      Exec(Ok(CreatedList(row, [])),
           db.(lists := db.lists + [row], nextListId := db.nextListId + 1, clock := db.clock + 1))
  }

  // ---------------------------------------------------------------------
  // getList (src/utils/url-list.ts:29-52)
  // ---------------------------------------------------------------------

  /** The joined rows of the slug, folded into one list. */
  function GetList(db: Db, customUrl: string, fault: bool): (r: Exec<Option<UrlList>>)
    ensures r.db == db
    ensures r.result.Ok? <==> !fault
    ensures r.result.Ok? ==> (r.result.value.None? <==> !HasSlug(db, customUrl))
    ensures r.result.Ok? && r.result.value.Some? ==> r.result.value.value.customUrl == customUrl
  {
    if fault then Exec(Err(QueryFailed), db)
    else
      var rows := SelectList(db, customUrl);
      Exec(Ok(FoldList(rows)), db)
  }

  /** What a list looks like from outside: its id and slug, and the entries
      of its URLs in ascending position. */
  function View(db: Db, l: ListRow): UrlList
  {
    UrlList(l.id, l.customUrl, EntriesOf(UrlsOfList(db, l.id)))
  }

  /** The views of several lists, in the same order. */
  function Views(db: Db, ls: seq<ListRow>): seq<UrlList>
  {
    seq(|ls|, i requires 0 <= i < |ls| => View(db, ls[i]))
  }

  /** No URL row has the falsy id 0, as under `Valid`. */
  predicate UrlIdsTruthy(db: Db)
  {
    forall i :: 0 <= i < |db.urls| ==> db.urls[i].id != 0
  }

  /** A list's URLs then have truthy ids too. */
  lemma ListUrlIdsTruthy(db: Db, listId: int)
    requires UrlIdsTruthy(db)
    ensures forall i :: 0 <= i < |UrlsOfList(db, listId)| ==> UrlsOfList(db, listId)[i].id != 0
  {
    var us := UrlsOfList(db, listId);
    forall i | 0 <= i < |us|
      ensures us[i].id != 0
    {
      assert us[i] in us;
      var k :| 0 <= k < |db.urls| && db.urls[k] == us[i];
    }
  }

  /** Under `Valid`, the slug of a list row selects that row alone. */
  lemma SlugSelectsRow(db: Db, l: ListRow)
    requires Valid(db)
    requires l in db.lists
    ensures Filter(db.lists, Named(l.customUrl)) == [l]
  {
    FilterSingle(db.lists, Named(l.customUrl), l);
  }

  /** `getList` of a stored slug is the view of its list: its id and slug,
      and the list's URLs as entries in ascending position; a list without
      URLs comes back with no entries, not as null. */
  lemma {:induction false} GetListIsView(db: Db, l: ListRow)
    requires Valid(db)
    requires l in db.lists
    ensures GetList(db, l.customUrl, false).result == Ok(Some(View(db, l)))
  {
    var us := UrlsOfList(db, l.id);
    SlugSelectsRow(db, l);
    assert LeftJoin(db, [l]) == Block(l, us);
    ListUrlIdsTruthy(db, l.id);
    EntriesOfBlock(l, us);
  }

  /** A view's entries are exactly the entries of its list's URL rows. */
  lemma ViewEntries(db: Db, l: ListRow)
    ensures forall e :: e in View(db, l).urls <==>
      exists i :: 0 <= i < |db.urls| && db.urls[i].listId == l.id && EntryOf(db.urls[i]) == e
  {
    var us := UrlsOfList(db, l.id);
    var es := View(db, l).urls;
    forall e | e in es
      ensures exists i :: 0 <= i < |db.urls| && db.urls[i].listId == l.id && EntryOf(db.urls[i]) == e
    {
      var k :| 0 <= k < |es| && es[k] == e;
      assert us[k] in us;
      var i :| 0 <= i < |db.urls| && db.urls[i] == us[k];
    }
    forall i | 0 <= i < |db.urls| && db.urls[i].listId == l.id
      ensures EntryOf(db.urls[i]) in es
    {
      assert db.urls[i] in us;
      var k :| 0 <= k < |us| && us[k] == db.urls[i];
      assert es[k] == EntryOf(db.urls[i]);
    }
  }

  /** A view's entries are exactly the URL rows of its list, and their
      positions strictly ascend. */
  lemma ViewUrls(db: Db, l: ListRow)
    requires Valid(db)
    ensures forall e :: e in View(db, l).urls <==>
      exists i :: 0 <= i < |db.urls| && db.urls[i].listId == l.id && EntryOf(db.urls[i]) == e
    ensures forall i, j :: 0 <= i < j < |View(db, l).urls| ==>
      View(db, l).urls[i].position < View(db, l).urls[j].position
  {
    var us := UrlsOfList(db, l.id);
    var es := View(db, l).urls;
    ViewEntries(db, l);
    UrlsOfListStrictlySorted(db, l.id);
    forall i, j | 0 <= i < j < |es|
      ensures es[i].position < es[j].position
    {
      assert Position(us[i]) < Position(us[j]);
    }
  }

  // ---------------------------------------------------------------------
  // getAllLists (src/utils/url-list.ts:83-110)
  // ---------------------------------------------------------------------

  /** All joined rows, newest list first, folded into lists. */
  function GetAllLists(db: Db, fault: bool): (r: Exec<seq<UrlList>>)
    ensures r.db == db
    ensures r.result.Ok? <==> !fault
    ensures r.result.Ok? ==> IsGrouping(SelectAll(db), r.result.value)
  {
    if fault then Exec(Err(QueryFailed), db)
    else Exec(Ok(GroupLists(SelectAll(db))), db)
  }

  /** The lists in the order `getAllLists` reports them. */
  function NewestFirstLists(db: Db): (ls: seq<ListRow>)
    ensures SortedBy(ls, NewestFirst)
    ensures multiset(ls) == multiset(db.lists)
  {
    SortBy(db.lists, NewestFirst)
  }

  /** Two rows of `url_lists` with one id are one row. */
  lemma SameIdSameList(db: Db, a: ListRow, b: ListRow)
    requires ListsValid(db)
    requires a in db.lists && b in db.lists
    requires a.id == b.id
    ensures a == b
  {
    var i :| 0 <= i < |db.lists| && db.lists[i] == a;
    var j :| 0 <= j < |db.lists| && db.lists[j] == b;
    if i < j || j < i {
      assert false;
    }
  }

  /** The lists newest first are the stored lists, rearranged. */
  lemma NewestFirstSameLists(db: Db)
    ensures forall l :: l in NewestFirstLists(db) <==> l in db.lists
  {
    var ls := NewestFirstLists(db);
    forall l | l in ls
      ensures l in db.lists
    {
      assert l in multiset(ls);
    }
    forall l | l in db.lists
      ensures l in ls
    {
      assert l in multiset(db.lists);
    }
  }

  /** Under the invariant on list rows, the lists newest first have distinct
      ids and strictly decreasing creation stamps, and they are exactly the
      stored lists. */
  lemma NewestFirstDistinct(db: Db)
    requires ListsValid(db)
    ensures forall i, j :: 0 <= i < j < |NewestFirstLists(db)| ==>
      NewestFirstLists(db)[i].id != NewestFirstLists(db)[j].id
    ensures forall i, j :: 0 <= i < j < |NewestFirstLists(db)| ==>
      NewestFirstLists(db)[i].createdAt > NewestFirstLists(db)[j].createdAt
    ensures forall l :: l in NewestFirstLists(db) <==> l in db.lists
  {
    var ls := NewestFirstLists(db);
    assert Distinct(db.lists);
    DistinctPermutation(ls, db.lists);
    NewestFirstSameLists(db);
    forall i, j | 0 <= i < j < |ls|
      ensures ls[i].id != ls[j].id && ls[i].createdAt > ls[j].createdAt
    {
      assert ls[i] in ls && ls[j] in ls;
      assert ls[i] != ls[j];
      if ls[i].id == ls[j].id {
        SameIdSameList(db, ls[i], ls[j]);
      }
      assert NewestFirst(ls[i]) <= NewestFirst(ls[j]);
      var a :| 0 <= a < |db.lists| && db.lists[a] == ls[i];
      var b :| 0 <= b < |db.lists| && db.lists[b] == ls[j];
      assert a != b;
    }
  }

  lemma ViewsAppend(db: Db, p: seq<ListRow>, l: ListRow)
    ensures Views(db, p + [l]) == Views(db, p) + [View(db, l)]
  {
  }

  /** Folding the join of lists with distinct ids yields their views. */
  lemma {:induction false} FoldJoin(db: Db, ls: seq<ListRow>)
    requires UrlIdsTruthy(db)
    requires forall i, j :: 0 <= i < j < |ls| ==> ls[i].id != ls[j].id
    ensures FoldRows([], LeftJoin(db, ls)) == Views(db, ls)
  {
    if ls != [] {
      var p := ls[..|ls| - 1];
      var l := ls[|ls| - 1];
      var us := UrlsOfList(db, l.id);
      var rows := LeftJoin(db, p);
      FoldJoin(db, p);
      FoldRowsAppend([], rows, Block(l, us));
      var acc := Views(db, p);
      forall i | 0 <= i < |acc|
        ensures acc[i].id != l.id
      {
        assert acc[i].id == ls[i].id;
      }
      FindAbsent(acc, l.id);
      ListUrlIdsTruthy(db, l.id);
      FoldBlock(acc, l, us);
      ViewsAppend(db, p, l);
      SplitLast(ls);
    }
  }

  /** `getAllLists` reports the view of every list, newest first: each list
      exactly once, each with the same id, slug and URLs `getList` gives. */
  lemma GetAllListsAreViews(db: Db)
    requires Valid(db)
    ensures GetAllLists(db, false).result == Ok(Views(db, NewestFirstLists(db)))
  {
    NewestFirstDistinct(db);
    assert UrlIdsTruthy(db);
    FoldJoin(db, NewestFirstLists(db));
  }

  /** Every list `getAllLists` reports is what `getList` reports for its slug. */
  lemma GetAllListsAgreesWithGetList(db: Db)
    requires Valid(db)
    ensures GetAllLists(db, false).result.Ok?
    ensures var out := GetAllLists(db, false).result.value;
      forall i :: 0 <= i < |out| ==> GetList(db, out[i].customUrl, false).result == Ok(Some(out[i]))
  {
    GetAllListsAreViews(db);
    NewestFirstSameLists(db);
    var ls := NewestFirstLists(db);
    var out := Views(db, ls);
    forall i | 0 <= i < |out|
      ensures GetList(db, out[i].customUrl, false).result == Ok(Some(out[i]))
    {
      assert out[i] == View(db, ls[i]);
      assert ls[i] in ls;
      GetListIsView(db, ls[i]);
    }
  }

  // ---------------------------------------------------------------------
  // addUrlToList (src/utils/url-list.ts:54-65)
  // ---------------------------------------------------------------------

  /** Read the next position, then `INSERT INTO urls (list_id, url, position)
      … RETURNING *`. The insert fails when no list has the id. */
  function AddUrlToList(db: Db, listId: int, url: string, fault: bool): (r: Exec<UrlRow>)
    ensures r.result.Ok? <==> !fault && HasList(db, listId)
    ensures r.result.Err? ==> r.db == db
    ensures r.result.Ok? ==>
      var u := r.result.value;
      && u.listId == listId && u.url == url && u.title.None? && u.description.None?
      && u.position == NextPosition(db, listId)
      && (forall i :: 0 <= i < |db.urls| && db.urls[i].listId == listId ==> db.urls[i].position < u.position)
      && ((forall i :: 0 <= i < |db.urls| ==> db.urls[i].listId != listId) ==> u.position == 0)
      && r.db.urls == db.urls + [u]
      && r.db.lists == db.lists
  {
    if fault then Exec(Err(QueryFailed), db)
    else if !HasList(db, listId) then Exec(Err(ForeignKeyViolation), db)
    else
      var u := UrlRow(db.nextUrlId, listId, url, None, None, NextPosition(db, listId), db.clock);
      Exec(Ok(u), db.(urls := db.urls + [u], nextUrlId := db.nextUrlId + 1, clock := db.clock + 1))
  }

  /** Filtering the table after an add: the new row joins its own list only. */
  lemma AddedRowFilter(urls: seq<UrlRow>, u: UrlRow, listId: int)
    ensures Filter(urls + [u], InList(listId)) ==
      Filter(urls, InList(listId)) + (if u.listId == listId then [u] else [])
  {
    assert (urls + [u])[..|urls|] == urls;
  }

  /** A row placed after every position of its list comes last in it. */
  lemma {:induction false} AddedRowLast(urls: seq<UrlRow>, u: UrlRow, listId: int)
    requires forall i :: 0 <= i < |urls| && urls[i].listId == u.listId ==> urls[i].position < u.position
    ensures SortBy(Filter(urls + [u], InList(listId)), Position) ==
      SortBy(Filter(urls, InList(listId)), Position) + (if u.listId == listId then [u] else [])
  {
    var f := Filter(urls, InList(listId));
    AddedRowFilter(urls, u, listId);
    if u.listId == listId {
      forall i | 0 <= i < |f|
        ensures Position(f[i]) < Position(u)
      {
        assert f[i] in f;
        var k :| 0 <= k < |urls| && urls[k] == f[i];
      }
      SortByAppendLargest(f, u, Position);
    } else {
      assert f + [] == f;
    }
  }

  /** The views of a table with one more row placed last in its list. */
  lemma ViewOfAppended(db: Db, db2: Db, u: UrlRow, l: ListRow)
    requires db2.urls == db.urls + [u]
    requires forall i :: 0 <= i < |db.urls| && db.urls[i].listId == u.listId ==> db.urls[i].position < u.position
    ensures View(db2, l).urls == View(db, l).urls + (if l.id == u.listId then [EntryOf(u)] else [])
  {
    AddedRowLast(db.urls, u, l.id);
    var us := UrlsOfList(db, l.id);
    if l.id == u.listId {
      assert UrlsOfList(db2, l.id) == us + [u];
      EntriesOfAppend(us, u);
    } else {
      assert UrlsOfList(db2, l.id) == us + [];
      assert us + [] == us;
    }
  }

  /** Adding a URL appends its entry to its list's view and leaves every
      other list's view as it was. */
  lemma AddUrlAppendsEntry(db: Db, listId: int, url: string, l: ListRow)
    requires AddUrlToList(db, listId, url, false).result.Ok?
    ensures var r := AddUrlToList(db, listId, url, false);
      View(r.db, l).urls ==
        View(db, l).urls + (if l.id == listId then [EntryOf(r.result.value)] else [])
  {
    var r := AddUrlToList(db, listId, url, false);
    ViewOfAppended(db, r.db, r.result.value, l);
  }

  /** `getList` after an add to a stored list shows the list's entries
      before the add, then the new URL's entry. */
  lemma AddThenGetList(db: Db, url: string, l: ListRow)
    requires Valid(db)
    requires l in db.lists
    ensures AddUrlToList(db, l.id, url, false).result.Ok?
    ensures var r := AddUrlToList(db, l.id, url, false);
      GetList(r.db, l.customUrl, false).result ==
        Ok(Some(UrlList(l.id, l.customUrl, View(db, l).urls + [EntryOf(r.result.value)])))
  {
    var k :| 0 <= k < |db.lists| && db.lists[k] == l;
    assert HasList(db, l.id);
    var r := AddUrlToList(db, l.id, url, false);
    AddUrlKeepsValid(db, l.id, url);
    AddUrlAppendsEntry(db, l.id, url, l);
    GetListIsView(r.db, l);
  }

  /** After an add, the next position of the list is one past the new URL's. */
  lemma AddUrlAdvancesPosition(db: Db, listId: int, url: string)
    requires AddUrlToList(db, listId, url, false).result.Ok?
    ensures var r := AddUrlToList(db, listId, url, false);
      NextPosition(r.db, listId) == r.result.value.position + 1
  {
    var r := AddUrlToList(db, listId, url, false);
    var u := r.result.value;
    var n := NextPosition(r.db, listId);
    assert r.db.urls[|db.urls|] == u;
    assert u.position < n;
    var i :| 0 <= i < |r.db.urls| && r.db.urls[i].listId == listId && r.db.urls[i].position == n - 1;
    assert r.db.urls[i].position <= u.position;
  }

  // ---------------------------------------------------------------------
  // updateUrl (src/utils/url-list.ts:67-73)
  // ---------------------------------------------------------------------

  /** The first URL row with this id, if any. */
  function FirstUrl(urls: seq<UrlRow>, urlId: int): (r: Option<UrlRow>)
    ensures r.None? <==> forall i :: 0 <= i < |urls| ==> urls[i].id != urlId
    ensures r.Some? ==> r.value in urls && r.value.id == urlId
  {
    if urls == [] then None
    else if urls[0].id == urlId then Some(urls[0])
    else
      var r := FirstUrl(urls[1..], urlId);
      assert forall i :: 1 <= i < |urls| ==> urls[i] == urls[1..][i - 1];
      r
  }

  /** A row after `SET url = $1, updated_at = CURRENT_TIMESTAMP`. */
  function Rewritten(u: UrlRow, newUrl: string, now: int): UrlRow
  {
    u.(url := newUrl, updatedAt := now)
  }

  /** The table after the update of every row with the id: each row keeps
      its id, list, title, description and position; rows with the id take
      the new URL, and rows with other ids are untouched. */
  function RewriteAll(urls: seq<UrlRow>, urlId: int, newUrl: string, now: int): (r: seq<UrlRow>)
    ensures |r| == |urls|
    ensures forall i :: 0 <= i < |urls| ==>
      && r[i].id == urls[i].id && r[i].listId == urls[i].listId && r[i].title == urls[i].title
      && r[i].description == urls[i].description && r[i].position == urls[i].position
      && (urls[i].id == urlId ==> r[i].url == newUrl)
      && (urls[i].id != urlId ==> r[i] == urls[i])
  {
    seq(|urls|, i requires 0 <= i < |urls| =>
      if urls[i].id == urlId then Rewritten(urls[i], newUrl, now) else urls[i])
  }

  /** `UPDATE urls SET url = $1, updated_at = CURRENT_TIMESTAMP WHERE id = $2
      RETURNING *`, returning `rows[0]`, which is undefined (None) when no row
      has the id. */
  function UpdateUrl(db: Db, urlId: int, newUrl: string, fault: bool): (r: Exec<Option<UrlRow>>)
    ensures r.result.Ok? <==> !fault
    ensures r.db.lists == db.lists
    ensures r.result.Ok? ==>
      (r.result.value.None? <==> forall i :: 0 <= i < |db.urls| ==> db.urls[i].id != urlId)
    ensures r.result.Ok? && r.result.value.Some? ==>
      r.result.value.value.id == urlId && r.result.value.value.url == newUrl && r.result.value.value in r.db.urls
    ensures r.result.Ok? && r.result.value.Some? ==>
      var u := r.result.value.value;
      exists k :: 0 <= k < |db.urls| && db.urls[k].id == urlId && u == Rewritten(db.urls[k], newUrl, u.updatedAt)
    ensures r.result.Err? || r.result.value.None? ==> r.db == db
  {
    if fault then Exec(Err(QueryFailed), db)
    else
      match FirstUrl(db.urls, urlId)
      case None => Exec(Ok(None), db)
      case Some(u) =>
        var urls := RewriteAll(db.urls, urlId, newUrl, db.clock);
        var k :| 0 <= k < |db.urls| && db.urls[k] == u;
        assert urls[k] == Rewritten(u, newUrl, db.clock);
        Exec(Ok(Some(Rewritten(u, newUrl, db.clock))), db.(urls := urls, clock := db.clock + 1))
  }

  /** `updateUrl` changes the `url` and `updated_at` of the rows with the id
      and nothing else: ids, lists, titles, descriptions and positions stay,
      and other rows are untouched. */
  lemma UpdateUrlChangesOnlyUrl(db: Db, urlId: int, newUrl: string)
    ensures var r := UpdateUrl(db, urlId, newUrl, false);
      && |r.db.urls| == |db.urls|
      && (forall i :: 0 <= i < |db.urls| ==>
            var (a, b) := (db.urls[i], r.db.urls[i]);
            && b.id == a.id && b.listId == a.listId && b.title == a.title
            && b.description == a.description && b.position == a.position
            && (a.id == urlId ==> b.url == newUrl)
            && (a.id != urlId ==> b == a))
  {
  }

  // ---------------------------------------------------------------------
  // deleteUrl, deleteList (src/utils/url-list.ts:75-81)
  // ---------------------------------------------------------------------

  /** `DELETE FROM urls WHERE id = $1`. */
  function DeleteUrl(db: Db, urlId: int, fault: bool): (r: Exec<()>)
    ensures r.result.Ok? <==> !fault
    ensures r.result.Err? ==> r.db == db
    ensures r.db.lists == db.lists
    ensures forall u :: u in r.db.urls <==> u in db.urls && (r.result.Err? || u.id != urlId)
  {
    if fault then Exec(Err(QueryFailed), db)
    else Exec(Ok(()), db.(urls := Filter(db.urls, NotUrl(urlId))))
  }

  /** `DELETE FROM url_lists WHERE custom_url = $1`. The statement touches
      no URL row. The `urls.list_id` foreign key is taken to be the default
      `NO ACTION` one: while URL rows still point at the list it makes the
      statement fail, as it makes an insert with an unknown list id fail. */
  function DeleteList(db: Db, customUrl: string, fault: bool): (r: Exec<()>)
    ensures r.result.Ok? <==> !fault && !Referenced(db, customUrl)
    ensures r.result == Err(ForeignKeyViolation) <==> !fault && Referenced(db, customUrl)
    ensures r.result.Err? ==> r.db == db
    ensures r.db.urls == db.urls
    ensures forall l :: l in r.db.lists <==> l in db.lists && (r.result.Err? || l.customUrl != customUrl)
  {
    if fault then Exec(Err(QueryFailed), db)
    else if Referenced(db, customUrl) then Exec(Err(ForeignKeyViolation), db)
    else Exec(Ok(()), db.(lists := Filter(db.lists, NotNamed(customUrl))))
  }

  /** `deleteList` never leaves a URL row without its list. */
  lemma DeleteListLeavesNoOrphans(db: Db, customUrl: string, fault: bool)
    ensures var r := DeleteList(db, customUrl, fault);
      forall j :: 0 <= j < |db.urls| && HasList(db, db.urls[j].listId) ==> HasList(r.db, db.urls[j].listId)
  {
    var r := DeleteList(db, customUrl, fault);
    forall j | 0 <= j < |db.urls| && HasList(db, db.urls[j].listId)
      ensures HasList(r.db, db.urls[j].listId)
    {
      var k :| 0 <= k < |db.lists| && db.lists[k].id == db.urls[j].listId;
      if r.result.Ok? {
        assert db.lists[k].customUrl != customUrl;
        assert db.lists[k] in r.db.lists;
        var m :| 0 <= m < |r.db.lists| && r.db.lists[m] == db.lists[k];
      }
    }
  }

  /** Deleting an id no row has changes nothing. */
  lemma DeleteUrlAbsent(db: Db, urlId: int)
    requires forall i :: 0 <= i < |db.urls| ==> db.urls[i].id != urlId
    ensures DeleteUrl(db, urlId, false).db == db
  {
    FilterKeepsAll(db.urls, NotUrl(urlId));
  }

  /** Deleting a URL twice is deleting it once. */
  lemma DeleteUrlIdempotent(db: Db, urlId: int)
    ensures var once := DeleteUrl(db, urlId, false).db;
      DeleteUrl(once, urlId, false).db == once
  {
    FilterIdempotent(db.urls, NotUrl(urlId));
  }

  /** Deleting a slug no list has changes nothing. */
  lemma DeleteListAbsent(db: Db, customUrl: string)
    requires !HasSlug(db, customUrl)
    ensures DeleteList(db, customUrl, false).db == db
  {
    FilterKeepsAll(db.lists, NotNamed(customUrl));
  }

  /** Deleting a list twice is deleting it once. */
  lemma DeleteListIdempotent(db: Db, customUrl: string)
    ensures var once := DeleteList(db, customUrl, false).db;
      DeleteList(once, customUrl, false).db == once
  {
    var r := DeleteList(db, customUrl, false);
    if r.result.Ok? {
      FilterIdempotent(db.lists, NotNamed(customUrl));
    }
  }

  /** After a successful `deleteList`, `getList` of the slug finds nothing;
      a refused one leaves the list where it was. */
  lemma GetListAfterDeleteList(db: Db, customUrl: string)
    ensures var r := DeleteList(db, customUrl, false);
      GetList(r.db, customUrl, false).result ==
        if r.result.Ok? then Ok(None) else GetList(db, customUrl, false).result
  {
    var r := DeleteList(db, customUrl, false);
    if r.result.Ok? {
      var d := r.db;
      forall i | 0 <= i < |d.lists|
        ensures d.lists[i].customUrl != customUrl
      {
        assert d.lists[i] in d.lists;
      }
    }
  }

  /** Removing the URL just added gives back the table of URLs. */
  lemma AddThenDeleteUrl(db: Db, listId: int, url: string)
    requires Valid(db)
    requires AddUrlToList(db, listId, url, false).result.Ok?
    ensures var r := AddUrlToList(db, listId, url, false);
      DeleteUrl(r.db, r.result.value.id, false).db.urls == db.urls
  {
    var r := AddUrlToList(db, listId, url, false);
    var u := r.result.value;
    FilterAppend(db.urls, [u], NotUrl(u.id));
    FilterKeepsAll(db.urls, NotUrl(u.id));
    assert Filter([u], NotUrl(u.id)) == [];
    assert db.urls + [] == db.urls;
  }

  /** Removing the list just created gives back the table of lists. */
  lemma CreateThenDeleteList(db: Db, customUrl: Option<string>, seed: nat)
    requires Valid(db)
    requires CreateList(db, customUrl, seed, false).result.Ok?
    ensures var r := CreateList(db, customUrl, seed, false);
      DeleteList(r.db, r.result.value.list.customUrl, false).result.Ok?
    ensures var r := CreateList(db, customUrl, seed, false);
      DeleteList(r.db, r.result.value.list.customUrl, false).db.lists == db.lists
  {
    var r := CreateList(db, customUrl, seed, false);
    var l := r.result.value.list;
    forall i, j | 0 <= i < |r.db.lists| && 0 <= j < |r.db.urls|
      ensures r.db.lists[i].customUrl != l.customUrl || r.db.urls[j].listId != r.db.lists[i].id
    {
      if i < |db.lists| {
        assert r.db.lists[i] == db.lists[i];
      } else {
        assert r.db.urls[j].listId < l.id;
      }
    }
    FilterAppend(db.lists, [l], NotNamed(l.customUrl));
    forall i | 0 <= i < |db.lists|
      ensures NotNamed(l.customUrl)(db.lists[i])
    {
      if db.lists[i].customUrl == l.customUrl {
        assert HasSlug(db, l.customUrl);
      }
    }
    FilterKeepsAll(db.lists, NotNamed(l.customUrl));
    assert Filter([l], NotNamed(l.customUrl)) == [];
    assert db.lists + [] == db.lists;
  }

  /** A list just created is found by its slug, with no URLs. */
  lemma GetListAfterCreate(db: Db, customUrl: Option<string>, seed: nat)
    requires Valid(db)
    requires CreateList(db, customUrl, seed, false).result.Ok?
    ensures var r := CreateList(db, customUrl, seed, false);
      var l := r.result.value.list;
      GetList(r.db, l.customUrl, false).result == Ok(Some(UrlList(l.id, l.customUrl, [])))
  {
    var r := CreateList(db, customUrl, seed, false);
    var l := r.result.value.list;
    CreateKeepsValid(db, customUrl, seed);
    assert l in r.db.lists;
    GetListIsView(r.db, l);
    forall i | 0 <= i < |r.db.urls|
      ensures r.db.urls[i].listId != l.id
    {
      assert db.urls[i].listId < db.nextListId == l.id;
    }
    FilterKeepsNone(r.db.urls, InList(l.id));
  }

  // ---------------------------------------------------------------------
  // The store invariant
  // ---------------------------------------------------------------------

  /** `createList` keeps the invariant, and the new list's id is fresh. */
  lemma CreateKeepsValid(db: Db, customUrl: Option<string>, seed: nat)
    requires Valid(db)
    ensures Valid(CreateList(db, customUrl, seed, false).db)
    ensures var r := CreateList(db, customUrl, seed, false);
      r.result.Ok? ==> forall i :: 0 <= i < |db.lists| ==> db.lists[i].id != r.result.value.list.id
    ensures var r := CreateList(db, customUrl, seed, false);
      r.result.Ok? ==> forall i :: 0 <= i < |db.lists| ==> db.lists[i].createdAt < r.result.value.list.createdAt
  {
    var r := CreateList(db, customUrl, seed, false);
    if r.result.Ok? {
      var l := r.result.value.list;
      assert r.db.lists == db.lists + [l];
      LinkedMoreLists(db, r.db);
      forall i | 0 <= i < |db.lists|
        ensures db.lists[i].customUrl != l.customUrl
      {
        if db.lists[i].customUrl == l.customUrl {
          assert HasSlug(db, l.customUrl);
        }
      }
    }
  }

  /** A list whose id no stored list carries has no URLs under the foreign key. */
  lemma UnlinkedIdHasNoUrls(db: Db, listId: int)
    requires Linked(db)
    requires forall i :: 0 <= i < |db.lists| ==> db.lists[i].id != listId
    ensures UrlsOfList(db, listId) == []
  {
    forall j | 0 <= j < |db.urls|
      ensures db.urls[j].listId != listId
    {
      assert HasList(db, db.urls[j].listId);
    }
    FilterKeepsNone(db.urls, InList(listId));
  }

  /** A list just created is the newest: `getAllLists` then reports it first,
      with no URLs, ahead of the lists it reported before. */
  lemma CreateThenGetAllLists(db: Db, customUrl: Option<string>, seed: nat)
    requires Valid(db)
    ensures var r := CreateList(db, customUrl, seed, false);
      r.result.Ok? ==>
        var l := r.result.value.list;
        GetAllLists(r.db, false).result == Ok([UrlList(l.id, l.customUrl, [])] + GetAllLists(db, false).result.value)
  {
    var r := CreateList(db, customUrl, seed, false);
    if r.result.Ok? {
      var l := r.result.value.list;
      CreateKeepsValid(db, customUrl, seed);
      GetAllListsAreViews(db);
      GetAllListsAreViews(r.db);
      UnlinkedIdHasNoUrls(db, l.id);
      NewestListFirst(db, r.db, l);
    }
  }

  /** The step of `CreateThenGetAllLists` once both stores are known to
      report their views: the later stamp sorts the new list first. */
  lemma NewestListFirst(db: Db, db2: Db, l: ListRow)
    requires GetAllLists(db, false).result == Ok(Views(db, NewestFirstLists(db)))
    requires GetAllLists(db2, false).result == Ok(Views(db2, NewestFirstLists(db2)))
    requires db2.lists == db.lists + [l] && db2.urls == db.urls
    requires forall i :: 0 <= i < |db.lists| ==> db.lists[i].createdAt < l.createdAt
    requires UrlsOfList(db, l.id) == []
    ensures GetAllLists(db2, false).result == Ok([UrlList(l.id, l.customUrl, [])] + GetAllLists(db, false).result.value)
  {
    SortByPrependSmallest(db.lists, l, NewestFirst);
    assert NewestFirstLists(db2) == [l] + NewestFirstLists(db);
    assert UrlsOfList(db2, l.id) == UrlsOfList(db, l.id);
    ViewsOfNewFirst(db, db2, l, NewestFirstLists(db));
  }

  /** The views of a list with no URLs followed by other lists. */
  lemma ViewsOfNewFirst(db: Db, db2: Db, l: ListRow, ls: seq<ListRow>)
    requires db2.urls == db.urls
    requires UrlsOfList(db2, l.id) == []
    ensures Views(db2, [l] + ls) == [UrlList(l.id, l.customUrl, [])] + Views(db, ls)
  {
    ViewsCons(db2, l, ls);
    ViewsOfSameUrls(db, db2, ls);
    assert EntriesOf([]) == [];
  }

  /** The views of one list followed by others. */
  lemma {:induction false} ViewsCons(db: Db, l: ListRow, ls: seq<ListRow>)
    ensures Views(db, [l] + ls) == [View(db, l)] + Views(db, ls)
  {
    if ls == [] {
      assert [l] + ls == [l];
    } else {
      var p := ls[..|ls| - 1];
      var x := ls[|ls| - 1];
      SplitLast(ls);
      assert [l] + ls == ([l] + p) + [x];
      ViewsCons(db, l, p);
      ViewsAppend(db, [l] + p, x);
      ViewsAppend(db, p, x);
    }
  }

  /** Views read only the `urls` table. */
  lemma ViewsOfSameUrls(db: Db, db2: Db, ls: seq<ListRow>)
    requires db2.urls == db.urls
    ensures Views(db2, ls) == Views(db, ls)
  {
    forall i | 0 <= i < |ls|
      ensures Views(db2, ls)[i] == Views(db, ls)[i]
    {
      ViewOfSameUrls(db, db2, ls[i]);
    }
  }

  /** The view of a list reads only the `urls` table. */
  lemma ViewOfSameUrls(db: Db, db2: Db, k: ListRow)
    requires db2.urls == db.urls
    ensures View(db2, k) == View(db, k)
  {
    assert UrlsOfList(db2, k.id) == UrlsOfList(db, k.id);
  }

  /** `addUrlToList` keeps the invariant, and the new URL's id is fresh. */
  lemma AddUrlKeepsValid(db: Db, listId: int, url: string)
    requires Valid(db)
    ensures Valid(AddUrlToList(db, listId, url, false).db)
    ensures var r := AddUrlToList(db, listId, url, false);
      r.result.Ok? ==> forall i :: 0 <= i < |db.urls| ==> db.urls[i].id != r.result.value.id
  {
    var r := AddUrlToList(db, listId, url, false);
    if r.result.Ok? {
      var u := r.result.value;
      var k :| 0 <= k < |db.lists| && db.lists[k].id == listId;
      assert 0 <= u.position by {
        if exists i :: 0 <= i < |db.urls| && db.urls[i].listId == listId {
          var i :| 0 <= i < |db.urls| && db.urls[i].listId == listId && db.urls[i].position == u.position - 1;
        }
      }
      UrlsValidAppend(db, r.db, u);
      LinkedMoreUrls(db, r.db, u);
    }
  }

  lemma UpdateKeepsValid(db: Db, urlId: int, newUrl: string)
    requires Valid(db)
    ensures Valid(UpdateUrl(db, urlId, newUrl, false).db)
  {
    UpdateUrlChangesOnlyUrl(db, urlId, newUrl);
  }

  lemma DeleteUrlKeepsValid(db: Db, urlId: int)
    requires Valid(db)
    ensures Valid(DeleteUrl(db, urlId, false).db)
  {
    var us := Filter(db.urls, NotUrl(urlId));
    assert Distinct(db.urls);
    FilterDistinct(db.urls, NotUrl(urlId));
    UrlsValidSub(db, us);
    forall j | 0 <= j < |us|
      ensures HasList(db, us[j].listId)
    {
      assert us[j] in us;
      var k :| 0 <= k < |db.urls| && db.urls[k] == us[j];
    }
  }

  lemma DeleteListKeepsValid(db: Db, customUrl: string)
    requires Valid(db)
    ensures Valid(DeleteList(db, customUrl, false).db)
  {
    var ls := Filter(db.lists, NotNamed(customUrl));
    assert Distinct(db.lists);
    FilterDistinct(db.lists, NotNamed(customUrl));
    ListsValidSub(db, ls);
    DeleteListLeavesNoOrphans(db, customUrl, false);
  }
}

=== FILE: row_fold.dfy ===
/** The code that turns flat joined rows into nested lists: the tail of
    `getList` (src/utils/url-list.ts:35-51) and the `listMap` loop of
    `getAllLists` (src/utils/url-list.ts:88-110). Both work on any rows,
    not only on rows a store could produce. */
module RowFold {
  import opened Js
  import opened Seqs
  import opened Join

  /** A list as the url-list code hands it out (`interface URLList`). */
  datatype UrlList = UrlList(id: int, customUrl: string, urls: seq<UrlEntry>)

  /** The `url_id` column: NULL for the padding row of a list without URLs. */
  function UrlIdColumn(row: JoinRow): Option<int>
  {
    match row.url
    case None => None
    case Some(e) => Some(e.id)
  }

  /** `row.url_id` is truthy: present and not 0. */
  predicate HasUrl(row: JoinRow)
  {
    TruthyNumber(UrlIdColumn(row))
  }

  /** `.filter(row => row.url_id).map(row => ({ id: row.url_id, … }))`:
      the URL columns of the rows that carry a URL, in row order. */
  function Entries(rows: seq<JoinRow>): (r: seq<UrlEntry>)
    ensures |r| <= |rows|
  {
    if rows == [] then []
    else
      var last := rows[|rows| - 1];
      Entries(rows[..|rows| - 1]) + (if HasUrl(last) then [last.url.value] else [])
  }

  lemma {:induction false} EntriesAppend(a: seq<JoinRow>, b: seq<JoinRow>)
    ensures Entries(a + b) == Entries(a) + Entries(b)
  {
    if b == [] {
      assert a + b == a;
    } else {
      assert (a + b)[..|a + b| - 1] == a + b[..|b| - 1];
      EntriesAppend(a, b[..|b| - 1]);
    }
  }

  /** Entries are exactly the URLs of the rows that pass the `url_id` test,
      and none of them has id 0. */
  lemma {:induction false} EntriesAreTruthyUrls(rows: seq<JoinRow>)
    ensures forall e :: e in Entries(rows) <==> exists i :: 0 <= i < |rows| && HasUrl(rows[i]) && rows[i].url.value == e
    ensures forall e :: e in Entries(rows) ==> e.id != 0
  {
    if rows != [] {
      var p := rows[..|rows| - 1];
      EntriesAreTruthyUrls(p);
      forall e | (exists i :: 0 <= i < |rows| && HasUrl(rows[i]) && rows[i].url.value == e)
        ensures e in Entries(rows)
      {
        var i :| 0 <= i < |rows| && HasUrl(rows[i]) && rows[i].url.value == e;
        if i < |p| {
          assert p[i] == rows[i];
        }
      }
      forall e | e in Entries(rows)
        ensures exists i :: 0 <= i < |rows| && HasUrl(rows[i]) && rows[i].url.value == e
      {
        if e in Entries(p) {
          var i :| 0 <= i < |p| && HasUrl(p[i]) && p[i].url.value == e;
          assert rows[i] == p[i];
        }
      }
    }
  }

  /** The rows of one list without URLs contribute no entry; a block of URL
      rows contributes their entries in order. */
  lemma {:induction false} EntriesOfBlock(l: Store.ListRow, us: seq<Store.UrlRow>)
    requires forall i :: 0 <= i < |us| ==> us[i].id != 0
    ensures Entries(Block(l, us)) == EntriesOf(us)
  {
    if us != [] {
      var p := us[..|us| - 1];
      var b := Block(l, us);
      if p == [] {
        assert b == [JoinRow(l, Some(EntryOf(us[0])))];
        assert b[..0] == [];
      } else {
        assert b[..|b| - 1] == Block(l, p);
        EntriesOfBlock(l, p);
      }
      assert HasUrl(b[|b| - 1]);
    }
  }

  /** The tail of `getList` (src/utils/url-list.ts:35-51): null for no rows,
      otherwise the first row's list columns with the entries of all rows. */
  function FoldList(rows: seq<JoinRow>): (r: Option<UrlList>)
    ensures r.None? <==> rows == []
  {
    if |rows| == 0 then None
    else Some(UrlList(rows[0].list.id, rows[0].list.customUrl, Entries(rows)))
  }

  // ---------------------------------------------------------------------
  // getAllLists: `listMap` as a sequence of lists in insertion order
  // ---------------------------------------------------------------------

  /** `listMap.has(id)` / `listMap.get(id)`: the index of the list with this
      id, or `|acc|` when there is none. */
  function Find(acc: seq<UrlList>, id: int): (i: nat)
    ensures i <= |acc|
    ensures i < |acc| ==> acc[i].id == id
    ensures forall j :: 0 <= j < i ==> acc[j].id != id
  {
    if acc == [] then 0
    else if acc[0].id == id then 0
    else 1 + Find(acc[1..], id)
  }

  /** `if (!listMap.has(row.id)) listMap.set(row.id, {…, urls: []})`. */
  function Register(acc: seq<UrlList>, row: JoinRow): (r: seq<UrlList>)
    ensures Find(r, row.list.id) < |r|
  {
    if Find(acc, row.list.id) < |acc| then acc
    else
      var r := acc + [UrlList(row.list.id, row.list.customUrl, [])];
      assert r[|acc|].id == row.list.id;
      r
  }

  /** One iteration of `result.rows.forEach`: register the list, then push
      the row's URL when `row.url_id` is truthy. */
  function Step(acc: seq<UrlList>, row: JoinRow): seq<UrlList>
  {
    var acc1 := Register(acc, row);
    if HasUrl(row) then
      var i := Find(acc1, row.list.id);
      acc1[i := acc1[i].(urls := acc1[i].urls + [row.url.value])]
    else acc1
  }

  /** The loop continued from `acc` over `rows`. */
  function FoldRows(acc: seq<UrlList>, rows: seq<JoinRow>): seq<UrlList>
  {
    if rows == [] then acc
    else Step(FoldRows(acc, rows[..|rows| - 1]), rows[|rows| - 1])
  }

  lemma {:induction false} FoldRowsAppend(acc: seq<UrlList>, a: seq<JoinRow>, b: seq<JoinRow>)
    ensures FoldRows(acc, a + b) == FoldRows(FoldRows(acc, a), b)
  {
    if b == [] {
      assert a + b == a;
    } else {
      assert (a + b)[..|a + b| - 1] == a + b[..|b| - 1];
      FoldRowsAppend(acc, a, b[..|b| - 1]);
    }
  }

  /** The test `row.list.id == id`. */
  function OfList(id: int): JoinRow -> bool
  {
    (row: JoinRow) => row.list.id == id
  }

  /** The URLs the rows carry for list `id`, in row order. */
  function UrlsOf(rows: seq<JoinRow>, id: int): seq<UrlEntry>
  {
    Entries(Filter(rows, OfList(id)))
  }

  /** Index of the first row of list `id`, or `|rows|` when there is none. */
  function FirstIndex(rows: seq<JoinRow>, id: int): (i: nat)
    ensures i <= |rows|
    ensures i < |rows| ==> rows[i].list.id == id
    ensures forall j :: 0 <= j < i ==> rows[j].list.id != id
  {
    if rows == [] then 0
    else if rows[0].list.id == id then 0
    else 1 + FirstIndex(rows[1..], id)
  }

  /** No two lists share an id: `listMap` is keyed by id. */
  predicate IdsDistinct(out: seq<UrlList>)
  {
    forall i, j :: 0 <= i < j < |out| ==> out[i].id != out[j].id
  }

  /** Every list id that occurs in the rows has a list. */
  predicate CoversRows(rows: seq<JoinRow>, out: seq<UrlList>)
  {
    forall j :: 0 <= j < |rows| ==> Find(out, rows[j].list.id) < |out|
  }

  /** Every list comes from a row, and takes its slug from the first row
      carrying its id. */
  predicate SlugsFromFirstRows(rows: seq<JoinRow>, out: seq<UrlList>)
  {
    forall i {:trigger FirstIndex(rows, out[i].id)} :: 0 <= i < |out| ==>
      && FirstIndex(rows, out[i].id) < |rows|
      && rows[FirstIndex(rows, out[i].id)].list.customUrl == out[i].customUrl
  }

  /** Lists come in the order their ids first occur in the rows. */
  predicate OrderOfFirstRows(rows: seq<JoinRow>, out: seq<UrlList>)
  {
    forall i, j {:trigger FirstIndex(rows, out[i].id), FirstIndex(rows, out[j].id)} ::
      0 <= i < j < |out| ==> FirstIndex(rows, out[i].id) < FirstIndex(rows, out[j].id)
  }

  /** Each list's URLs are the URLs its rows carry, in row order. */
  predicate UrlsFromRows(rows: seq<JoinRow>, out: seq<UrlList>)
  {
    forall i :: 0 <= i < |out| ==> out[i].urls == UrlsOf(rows, out[i].id)
  }

  /** What `getAllLists` promises of its output `out` for the rows `rows`:
      every list id of the rows appears exactly once, lists come in order of
      first appearance in the rows, each list takes its slug from its first
      row, and each list's URLs are the URLs its rows carry, in row order. */
  predicate IsGrouping(rows: seq<JoinRow>, out: seq<UrlList>)
  {
    && IdsDistinct(out)
    && CoversRows(rows, out)
    && SlugsFromFirstRows(rows, out)
    && OrderOfFirstRows(rows, out)
    && UrlsFromRows(rows, out)
  }

  lemma {:induction false} FirstIndexExtend(p: seq<JoinRow>, x: JoinRow, id: int)
    ensures FirstIndex(p + [x], id) ==
      if FirstIndex(p, id) < |p| then FirstIndex(p, id) else if x.list.id == id then |p| else |p| + 1
  {
    if p != [] {
      assert (p + [x])[1..] == p[1..] + [x];
      if p[0].list.id != id {
        FirstIndexExtend(p[1..], x, id);
      }
    }
  }

  lemma {:induction false} UrlsOfExtend(p: seq<JoinRow>, x: JoinRow, id: int)
    ensures UrlsOf(p + [x], id) ==
      UrlsOf(p, id) + (if x.list.id == id && HasUrl(x) then [x.url.value] else [])
  {
    var rows := p + [x];
    assert rows[..|rows| - 1] == p;
    var f := Filter(p, OfList(id));
    if x.list.id == id {
      assert Filter(rows, OfList(id)) == f + [x];
      assert (f + [x])[..|f|] == f;
    } else {
      assert Filter(rows, OfList(id)) == f;
    }
  }

  /** A list id no row carries has no URLs. */
  lemma {:induction false} UrlsOfAbsent(rows: seq<JoinRow>, id: int)
    requires forall j :: 0 <= j < |rows| ==> rows[j].list.id != id
    ensures UrlsOf(rows, id) == []
  {
    FilterKeepsNone(rows, OfList(id));
  }

  /** Only the ids matter to `Find`. */
  lemma {:induction false} FindSameIds(a: seq<UrlList>, b: seq<UrlList>, id: int)
    requires |a| == |b|
    requires forall i :: 0 <= i < |a| ==> a[i].id == b[i].id
    ensures Find(a, id) == Find(b, id)
  {
    if a != [] && a[0].id != id {
      FindSameIds(a[1..], b[1..], id);
    }
  }

  /** Appending a list does not move the lists already there, and a new id
      is found at the end. */
  lemma {:induction false} FindAppend(acc: seq<UrlList>, y: UrlList, id: int)
    ensures Find(acc + [y], id) ==
      if Find(acc, id) < |acc| then Find(acc, id) else if y.id == id then |acc| else |acc| + 1
  {
    if acc != [] {
      assert (acc + [y])[1..] == acc[1..] + [y];
      if acc[0].id != id {
        FindAppend(acc[1..], y, id);
      }
    }
  }

  /** An id no list carries is not found. */
  lemma FindAbsent(acc: seq<UrlList>, id: int)
    requires forall i :: 0 <= i < |acc| ==> acc[i].id != id
    ensures Find(acc, id) == |acc|
  {
  }

  /** One step on a list already registered: ids and slugs stay, and only
      the row's list may gain the row's URL. */
  lemma {:induction false} StepSeenShape(acc: seq<UrlList>, x: JoinRow)
    requires Find(acc, x.list.id) < |acc|
    ensures var out := Step(acc, x);
      && |out| == |acc|
      && (forall i :: 0 <= i < |acc| ==> out[i].id == acc[i].id && out[i].customUrl == acc[i].customUrl)
      && (forall i :: 0 <= i < |acc| && i != Find(acc, x.list.id) ==> out[i].urls == acc[i].urls)
      && out[Find(acc, x.list.id)].urls == acc[Find(acc, x.list.id)].urls + (if HasUrl(x) then [x.url.value] else [])
  {
    assert Register(acc, x) == acc;
  }

  /** One step on a list not registered yet appends that list. */
  lemma {:induction false} StepUnseenShape(acc: seq<UrlList>, x: JoinRow)
    requires Find(acc, x.list.id) == |acc|
    ensures Step(acc, x) ==
      acc + [UrlList(x.list.id, x.list.customUrl, if HasUrl(x) then [x.url.value] else [])]
  {
    var y := UrlList(x.list.id, x.list.customUrl, []);
    var acc1 := acc + [y];
    assert Register(acc, x) == acc1;
    FindAppend(acc, y, x.list.id);
    assert Find(acc1, x.list.id) == |acc|;
    if HasUrl(x) {
      assert y.urls + [x.url.value] == [x.url.value];
      assert acc1[|acc| := y.(urls := [x.url.value])] == acc + [y.(urls := [x.url.value])];
    }
  }

  /** Lists whose ids and slugs are unchanged keep the order and slug facts
      when one more row arrives. */
  lemma {:induction false} SameListsKeepFirsts(p: seq<JoinRow>, x: JoinRow, acc: seq<UrlList>, out: seq<UrlList>)
    requires |out| == |acc|
    requires forall i :: 0 <= i < |acc| ==> out[i].id == acc[i].id && out[i].customUrl == acc[i].customUrl
    requires IdsDistinct(acc) && SlugsFromFirstRows(p, acc) && OrderOfFirstRows(p, acc)
    ensures IdsDistinct(out) && SlugsFromFirstRows(p + [x], out) && OrderOfFirstRows(p + [x], out)
    ensures forall i :: 0 <= i < |out| ==> FirstIndex(p + [x], out[i].id) == FirstIndex(p, acc[i].id) < |p|
  {
    var rows := p + [x];
    forall i | 0 <= i < |out|
      ensures FirstIndex(rows, out[i].id) == FirstIndex(p, acc[i].id) < |p|
      ensures rows[FirstIndex(rows, out[i].id)].list.customUrl == out[i].customUrl
    {
      FirstIndexExtend(p, x, acc[i].id);
      assert rows[FirstIndex(p, acc[i].id)] == p[FirstIndex(p, acc[i].id)];
    }
  }

  /** Lists with the same ids as before still cover the rows, and the
      new row's list is among them. */
  lemma {:induction false} SeenCovers(p: seq<JoinRow>, x: JoinRow, acc: seq<UrlList>, out: seq<UrlList>)
    requires CoversRows(p, acc)
    requires Find(acc, x.list.id) < |acc|
    requires |out| == |acc|
    requires forall i :: 0 <= i < |acc| ==> out[i].id == acc[i].id
    ensures CoversRows(p + [x], out)
  {
    var rows := p + [x];
    forall j | 0 <= j < |rows|
      ensures Find(out, rows[j].list.id) < |out|
    {
      FindSameIds(out, acc, rows[j].list.id);
      if j < |p| {
        assert rows[j] == p[j];
      }
    }
  }

  /** The row's URL lands on its own list, whose URLs are the URLs of its
      rows; the other lists keep theirs. */
  lemma {:induction false} SeenUrls(p: seq<JoinRow>, x: JoinRow, acc: seq<UrlList>, out: seq<UrlList>)
    requires UrlsFromRows(p, acc)
    requires IdsDistinct(acc)
    requires Find(acc, x.list.id) < |acc|
    requires |out| == |acc|
    requires forall i :: 0 <= i < |acc| ==> out[i].id == acc[i].id
    requires forall i :: 0 <= i < |acc| && i != Find(acc, x.list.id) ==> out[i].urls == acc[i].urls
    requires out[Find(acc, x.list.id)].urls ==
      acc[Find(acc, x.list.id)].urls + (if HasUrl(x) then [x.url.value] else [])
    ensures UrlsFromRows(p + [x], out)
  {
    var f := Find(acc, x.list.id);
    forall i | 0 <= i < |out|
      ensures out[i].urls == UrlsOf(p + [x], out[i].id)
    {
      UrlsOfExtend(p, x, acc[i].id);
      if i != f {
        assert acc[i].id != x.list.id;
      }
    }
  }

  /** A row of a list already registered extends that list's URLs at most. */
  lemma {:induction false} StepSeen(p: seq<JoinRow>, acc: seq<UrlList>, x: JoinRow)
    requires IsGrouping(p, acc)
    requires Find(acc, x.list.id) < |acc|
    ensures IsGrouping(p + [x], Step(acc, x))
  {
    var out := Step(acc, x);
    StepSeenShape(acc, x);
    SameListsKeepFirsts(p, x, acc, out);
    SeenCovers(p, x, acc, out);
    SeenUrls(p, x, acc, out);
  }

  /** No row before the new one carries the id of a list not registered. */
  lemma {:induction false} UnseenIdAbsent(p: seq<JoinRow>, acc: seq<UrlList>, k: int)
    requires CoversRows(p, acc)
    requires Find(acc, k) == |acc|
    ensures forall j :: 0 <= j < |p| ==> p[j].list.id != k
  {
    forall j | 0 <= j < |p|
      ensures p[j].list.id != k
    {
      assert Find(acc, p[j].list.id) < |acc|;
    }
  }

  /** Appending the list of a new row keeps every row covered. */
  lemma {:induction false} UnseenCovers(p: seq<JoinRow>, acc: seq<UrlList>, x: JoinRow, y: UrlList)
    requires CoversRows(p, acc)
    requires y.id == x.list.id
    ensures CoversRows(p + [x], acc + [y])
  {
    var rows := p + [x];
    forall j | 0 <= j < |rows|
      ensures Find(acc + [y], rows[j].list.id) < |acc + [y]|
    {
      FindAppend(acc, y, rows[j].list.id);
      if j < |p| {
        assert rows[j] == p[j];
      }
    }
  }

  /** Appending the list of a new row, with the URLs of its rows, keeps
      the URLs of the lists already there. */
  lemma {:induction false} UnseenUrls(p: seq<JoinRow>, acc: seq<UrlList>, x: JoinRow, y: UrlList)
    requires UrlsFromRows(p, acc)
    requires forall i :: 0 <= i < |acc| ==> acc[i].id != x.list.id
    requires y.urls == UrlsOf(p + [x], y.id)
    ensures UrlsFromRows(p + [x], acc + [y])
  {
    var out := acc + [y];
    forall i | 0 <= i < |out|
      ensures out[i].urls == UrlsOf(p + [x], out[i].id)
    {
      if i < |acc| {
        UrlsOfExtend(p, x, acc[i].id);
      }
    }
  }

  /** Appending the list of a new row, named by its slug, keeps the order
      and slug facts. */
  lemma {:induction false} UnseenFirsts(p: seq<JoinRow>, acc: seq<UrlList>, x: JoinRow, y: UrlList)
    requires IdsDistinct(acc) && SlugsFromFirstRows(p, acc) && OrderOfFirstRows(p, acc)
    requires forall j :: 0 <= j < |p| ==> p[j].list.id != x.list.id
    requires forall i :: 0 <= i < |acc| ==> acc[i].id != x.list.id
    requires y.id == x.list.id && y.customUrl == x.list.customUrl
    ensures IdsDistinct(acc + [y]) && SlugsFromFirstRows(p + [x], acc + [y]) && OrderOfFirstRows(p + [x], acc + [y])
  {
    var rows := p + [x];
    var out := acc + [y];
    SameListsKeepFirsts(p, x, acc, acc);
    FirstIndexExtend(p, x, y.id);
    assert FirstIndex(rows, y.id) == |p|;
    forall i | 0 <= i < |out|
      ensures FirstIndex(rows, out[i].id) < |rows|
      ensures rows[FirstIndex(rows, out[i].id)].list.customUrl == out[i].customUrl
    {
      if i < |acc| {
        assert out[i] == acc[i];
      }
    }
    forall i, j | 0 <= i < j < |out|
      ensures FirstIndex(rows, out[i].id) < FirstIndex(rows, out[j].id)
    {
      assert out[i] == acc[i];
      if j < |acc| {
        assert out[j] == acc[j];
      }
    }
  }

  /** A row of a new list appends that list, with the row's URL if it has one. */
  lemma {:induction false} StepUnseen(p: seq<JoinRow>, acc: seq<UrlList>, x: JoinRow)
    requires IsGrouping(p, acc)
    requires Find(acc, x.list.id) == |acc|
    ensures IsGrouping(p + [x], Step(acc, x))
  {
    var k := x.list.id;
    var y := UrlList(k, x.list.customUrl, if HasUrl(x) then [x.url.value] else []);
    StepUnseenShape(acc, x);
    UnseenIdAbsent(p, acc, k);
    UrlsOfExtend(p, x, k);
    UrlsOfAbsent(p, k);
    UnseenCovers(p, acc, x, y);
    UnseenUrls(p, acc, x, y);
    UnseenFirsts(p, acc, x, y);
  }

  /** One iteration of the loop keeps the grouping promise. */
  lemma {:induction false} StepKeepsGrouping(p: seq<JoinRow>, acc: seq<UrlList>, x: JoinRow)
    requires IsGrouping(p, acc)
    ensures IsGrouping(p + [x], Step(acc, x))
  {
    if Find(acc, x.list.id) < |acc| {
      StepSeen(p, acc, x);
    } else {
      StepUnseen(p, acc, x);
    }
  }

  /** The loop over all rows but the last keeps its promise, so the loop
      over all rows does. */
  lemma FoldRowsGroupsLast(rows: seq<JoinRow>)
    requires rows != []
    requires IsGrouping(rows[..|rows| - 1], FoldRows([], rows[..|rows| - 1]))
    ensures IsGrouping(rows, FoldRows([], rows))
  {
    var p := rows[..|rows| - 1];
    StepKeepsGrouping(p, FoldRows([], p), rows[|rows| - 1]);
    SplitLast(rows);
  }

  lemma {:induction false} FoldRowsGroups(rows: seq<JoinRow>)
    ensures IsGrouping(rows, FoldRows([], rows))
  {
    if rows != [] {
      FoldRowsGroups(rows[..|rows| - 1]);
      FoldRowsGroupsLast(rows);
    }
  }

  /** `getAllLists`' fold (src/utils/url-list.ts:88-110): `Array.from(listMap.values())`. */
  function GroupLists(rows: seq<JoinRow>): (r: seq<UrlList>)
    ensures IsGrouping(rows, r)
  {
    FoldRowsGroups(rows);
    FoldRows([], rows)
  }

  /** A row without a URL for a list already seen changes nothing: rows
      without `url_id` contribute no URL. */
  lemma {:induction false} RowWithoutUrlAddsNothing(rows: seq<JoinRow>, x: JoinRow)
    requires !HasUrl(x)
    requires exists j :: 0 <= j < |rows| && rows[j].list.id == x.list.id
    ensures GroupLists(rows + [x]) == GroupLists(rows)
  {
    var j :| 0 <= j < |rows| && rows[j].list.id == x.list.id;
    assert (rows + [x])[..|rows|] == rows;
    var acc := GroupLists(rows);
    assert Find(acc, rows[j].list.id) < |acc|;
    StepSeenShape(acc, x);
    assert Step(acc, x) == acc;
  }

  /** A block of two or more URLs is the block of all but the last URL,
      then the last URL's row. */
  lemma BlockSplitLast(l: Store.ListRow, us: seq<Store.UrlRow>)
    requires |us| >= 2
    ensures |Block(l, us)| == |us|
    ensures Block(l, us)[..|us| - 1] == Block(l, us[..|us| - 1])
    ensures Block(l, us)[|us| - 1] == JoinRow(l, Some(EntryOf(us[|us| - 1])))
    ensures EntriesOf(us) == EntriesOf(us[..|us| - 1]) + [EntryOf(us[|us| - 1])]
  {
  }

  /** A row with a URL for the last list registered extends that list. */
  lemma StepOnLast(acc: seq<UrlList>, y: UrlList, x: JoinRow)
    requires Find(acc, y.id) == |acc|
    requires x.list.id == y.id && HasUrl(x)
    ensures Step(acc + [y], x) == acc + [y.(urls := y.urls + [x.url.value])]
  {
    FindAppend(acc, y, y.id);
    assert Register(acc + [y], x) == acc + [y];
  }

  /** A block of at most one URL is a single row. */
  lemma BlockOfOne(l: Store.ListRow, us: seq<Store.UrlRow>)
    requires |us| <= 1
    ensures |Block(l, us)| == 1
    ensures Block(l, us)[..0] == []
    ensures Block(l, us)[0] == JoinRow(l, if us == [] then None else Some(EntryOf(us[0])))
    ensures EntriesOf(us) == if us == [] then [] else [EntryOf(us[0])]
  {
  }

  /** Folding the rows of one list that is not registered yet appends that
      list with its URLs in order. */
  lemma {:induction false} FoldBlock(acc: seq<UrlList>, l: Store.ListRow, us: seq<Store.UrlRow>)
    requires Find(acc, l.id) == |acc|
    requires forall i :: 0 <= i < |us| ==> us[i].id != 0
    ensures FoldRows(acc, Block(l, us)) == acc + [UrlList(l.id, l.customUrl, EntriesOf(us))]
  {
    var b := Block(l, us);
    if |us| <= 1 {
      BlockOfOne(l, us);
      StepUnseenShape(acc, b[0]);
    } else {
      var p := us[..|us| - 1];
      BlockSplitLast(l, us);
      FoldBlock(acc, l, p);
      var y := UrlList(l.id, l.customUrl, EntriesOf(p));
      StepOnLast(acc, y, b[|b| - 1]);
    }
  }
}

=== FILE: seqs.dfy ===
/** Sequence operations the SQL statements are built from: `WHERE`
    (Filter) and `ORDER BY` (SortBy). */
module Seqs {

  /** A non-empty sequence is its prefix followed by its last element.
      Stated once here so that callers with heavy contexts need not prove
      the sequence equality themselves. */
  lemma SplitLast<T>(s: seq<T>)
    requires s != []
    ensures s == s[..|s| - 1] + [s[|s| - 1]]
  {
  }

  /** The elements of `s` that satisfy `keep`, in their original order. */
  function Filter<T(==,!new)>(s: seq<T>, keep: T -> bool): (r: seq<T>)
    ensures |r| <= |s|
    ensures forall i :: 0 <= i < |r| ==> keep(r[i])
    ensures forall x :: x in r <==> x in s && keep(x)
  {
    if s == [] then []
    else Filter(s[..|s| - 1], keep) + (if keep(s[|s| - 1]) then [s[|s| - 1]] else [])
  }

  lemma {:induction false} FilterAppend<T(!new)>(a: seq<T>, b: seq<T>, keep: T -> bool)
    ensures Filter(a + b, keep) == Filter(a, keep) + Filter(b, keep)
  {
    if b != [] {
      var b' := b[..|b| - 1];
      assert (a + b)[..|a + b| - 1] == a + b';
      FilterAppend(a, b', keep);
    } else {
      assert a + b == a;
    }
  }

  /** Membership in a filtered sequence, stated by index. */
  lemma FilterIndices<T(!new)>(s: seq<T>, keep: T -> bool)
    ensures forall i :: 0 <= i < |s| && keep(s[i]) ==> s[i] in Filter(s, keep)
    ensures forall j :: 0 <= j < |Filter(s, keep)| ==>
              exists i :: 0 <= i < |s| && s[i] == Filter(s, keep)[j]
  {
    var r := Filter(s, keep);
    forall i | 0 <= i < |s| && keep(s[i])
      ensures s[i] in r
    {
      assert s[i] in s;
    }
    forall j | 0 <= j < |r|
      ensures exists i :: 0 <= i < |s| && s[i] == r[j]
    {
      assert r[j] in r;
    }
  }

  /** Nothing is removed when every element is kept. */
  lemma {:induction false} FilterKeepsAll<T(!new)>(s: seq<T>, keep: T -> bool)
    requires forall i :: 0 <= i < |s| ==> keep(s[i])
    ensures Filter(s, keep) == s
  {
    if s != [] {
      FilterKeepsAll(s[..|s| - 1], keep);
    }
  }

  /** Every element is removed when none is kept. */
  lemma FilterKeepsNone<T(!new)>(s: seq<T>, keep: T -> bool)
    requires forall i :: 0 <= i < |s| ==> !keep(s[i])
    ensures Filter(s, keep) == []
  {
  }

  /** Filtering twice by the same test is filtering once. */
  lemma FilterIdempotent<T(!new)>(s: seq<T>, keep: T -> bool)
    ensures Filter(Filter(s, keep), keep) == Filter(s, keep)
  {
    FilterKeepsAll(Filter(s, keep), keep);
  }

  /** Filtering keeps exactly `x` when `x` is the only element that passes. */
  lemma {:induction false} FilterSingle<T(!new)>(s: seq<T>, keep: T -> bool, x: T)
    requires x in s && keep(x)
    requires forall i, j :: 0 <= i < j < |s| ==> !(keep(s[i]) && keep(s[j]))
    ensures Filter(s, keep) == [x]
  {
    var p := s[..|s| - 1];
    var last := s[|s| - 1];
    assert s == p + [last];
    if keep(last) {
      forall i | 0 <= i < |p|
        ensures !keep(p[i])
      {
        assert s[i] == p[i];
      }
      FilterKeepsNone(p, keep);
      var k :| 0 <= k < |s| && s[k] == x;
      assert k == |p|;
    } else {
      assert x in p;
      FilterSingle(p, keep, x);
    }
  }

  /** No element occurs twice. */
  predicate Distinct<T(==)>(s: seq<T>)
  {
    forall i, j :: 0 <= i < j < |s| ==> s[i] != s[j]
  }

  lemma {:induction false} DistinctCountsOnce<T>(s: seq<T>, x: T)
    requires Distinct(s)
    ensures multiset(s)[x] <= 1
  {
    if s != [] {
      var p := s[..|s| - 1];
      assert s == p + [s[|s| - 1]];
      DistinctCountsOnce(p, x);
      if s[|s| - 1] == x {
        assert x !in p;
      }
    }
  }

  lemma {:induction false} FilterDistinct<T(!new)>(s: seq<T>, keep: T -> bool)
    requires Distinct(s)
    ensures Distinct(Filter(s, keep))
  {
    if s != [] {
      var p := s[..|s| - 1];
      FilterDistinct(p, keep);
      assert s[|s| - 1] !in p;
    }
  }

  /** A rearrangement of a duplicate-free sequence is duplicate-free. */
  lemma DistinctPermutation<T>(a: seq<T>, b: seq<T>)
    requires multiset(a) == multiset(b)
    requires Distinct(b)
    ensures Distinct(a)
  {
    forall i, j | 0 <= i < j < |a|
      ensures a[i] != a[j]
    {
      if a[i] == a[j] {
        assert a == a[..j] + [a[j]] + a[j + 1..];
        assert a[i] in a[..j];
        assert multiset(a)[a[i]] >= 2;
        DistinctCountsOnce(b, a[i]);
      }
    }
  }

  /** Ascending by `key` (ties allowed). */
  predicate SortedBy<T>(s: seq<T>, key: T -> int)
  {
    forall i, j :: 0 <= i < j < |s| ==> key(s[i]) <= key(s[j])
  }

  /** Strictly ascending by `key`. */
  predicate StrictlySortedBy<T>(s: seq<T>, key: T -> int)
  {
    forall i, j :: 0 <= i < j < |s| ==> key(s[i]) < key(s[j])
  }

  /** `x` placed into the sorted `s` after every element whose key is not larger. */
  function Insert<T(==,!new)>(x: T, s: seq<T>, key: T -> int): (r: seq<T>)
    requires SortedBy(s, key)
    ensures |r| == |s| + 1
    ensures SortedBy(r, key)
    ensures multiset(r) == multiset(s) + multiset{x}
    ensures forall y :: y in r <==> y in s || y == x
  {
    if s == [] || key(s[|s| - 1]) <= key(x) then s + [x]
    else
      var p := s[..|s| - 1];
      var last := s[|s| - 1];
      assert s == p + [last];
      var q := Insert(x, p, key);
      BoundedBy(q, p, x, last, key);
      q + [last]
  }

  /** Every element of `q`, drawn from `p` or equal to `x`, has a key at most `key(last)`. */
  lemma BoundedBy<T(!new)>(q: seq<T>, p: seq<T>, x: T, last: T, key: T -> int)
    requires forall y :: y in q ==> y in p || y == x
    requires forall i :: 0 <= i < |p| ==> key(p[i]) <= key(last)
    requires key(x) <= key(last)
    ensures forall i :: 0 <= i < |q| ==> key(q[i]) <= key(last)
  {
    forall i | 0 <= i < |q|
      ensures key(q[i]) <= key(last)
    {
      assert q[i] in q;
      if q[i] != x {
        var j :| 0 <= j < |p| && p[j] == q[i];
      }
    }
  }

  /** The elements of `s` ordered by ascending `key` (insertion sort). */
  function SortBy<T(==,!new)>(s: seq<T>, key: T -> int): (r: seq<T>)
    ensures SortedBy(r, key)
    ensures multiset(r) == multiset(s)
    ensures |r| == |s|
    ensures forall y :: y in r <==> y in s
  {
    if s == [] then []
    else
      var p := s[..|s| - 1];
      assert s == p + [s[|s| - 1]];
      Insert(s[|s| - 1], SortBy(p, key), key)
  }

  /** `x` placed into a sorted `s` whose keys all exceed its own goes first. */
  lemma {:induction false} InsertSmallest<T(!new)>(x: T, s: seq<T>, key: T -> int)
    requires SortedBy(s, key)
    requires forall i :: 0 <= i < |s| ==> key(x) < key(s[i])
    ensures Insert(x, s, key) == [x] + s
  {
    if s != [] {
      var p := s[..|s| - 1];
      var last := s[|s| - 1];
      InsertPastLast(x, s, key);
      InsertSmallest(x, p, key);
      SplitLast(s);
      assert [x] + p + [last] == [x] + s;
    }
  }

  /** One unfolding of `Insert` when `x` belongs before the last element. */
  lemma InsertPastLast<T(!new)>(x: T, s: seq<T>, key: T -> int)
    requires SortedBy(s, key)
    requires s != [] && key(x) < key(s[|s| - 1])
    ensures SortedBy(s[..|s| - 1], key)
    ensures Insert(x, s, key) == Insert(x, s[..|s| - 1], key) + [s[|s| - 1]]
  {
  }

  /** Sorting a row whose key is below every key already present puts it
      first: `SortBy(s + [x]) == [x] + SortBy(s)`. */
  lemma SortByPrependSmallest<T(!new)>(s: seq<T>, x: T, key: T -> int)
    requires forall i :: 0 <= i < |s| ==> key(x) < key(s[i])
    ensures SortBy(s + [x], key) == [x] + SortBy(s, key)
  {
    assert (s + [x])[..|s|] == s;
    var t := SortBy(s, key);
    forall i | 0 <= i < |t|
      ensures key(x) < key(t[i])
    {
      assert t[i] in s;
    }
    InsertSmallest(x, t, key);
  }

  /** Sorting rows that arrive after every key already present appends them:
      `SortBy(s + [x]) == SortBy(s) + [x]` when `x` has the largest key. */
  lemma SortByAppendLargest<T(!new)>(s: seq<T>, x: T, key: T -> int)
    requires forall i :: 0 <= i < |s| ==> key(s[i]) < key(x)
    ensures SortBy(s + [x], key) == SortBy(s, key) + [x]
  {
    assert (s + [x])[..|s|] == s;
    var t := SortBy(s, key);
    if t != [] {
      assert t[|t| - 1] in s;
    }
  }
}

=== FILE: slug.dfy ===
/** The default slug of a new list (src/utils/url-list.ts:4): nanoid's
    `customAlphabet` over lower-case alphanumerics, ten characters long.
    Randomness is a parameter: the generator's draw is a `seed`, and the
    slug is the seed's last ten base-36 digits spelled in that alphabet. */
module Slug {
  import opened Seqs

  const Alphabet: string := "1234567890abcdefghijklmnopqrstuvwxyz"
  const Length: nat := 10

  /** The `k`-th character of `Alphabet`, computed from `k`. */
  function Letter(k: nat): (c: char)
    requires k < 36
  {
    if k < 9 then ('1' as int + k) as char
    else if k == 9 then '0'
    else ('a' as int + k - 10) as char
  }

  /** `Letter` spells out `Alphabet`. */
  lemma LetterIsAlphabet(k: nat)
    requires k < 36
    ensures |Alphabet| == 36 && Alphabet[k] == Letter(k)
  {
    assert Alphabet == seq(36, (i: int) requires 0 <= i < 36 => Letter(i));
  }

  /** Membership in `Alphabet`, as character ranges. */
  predicate InAlphabet(c: char)
  {
    '0' <= c <= '9' || 'a' <= c <= 'z'
  }

  /** Position of `c` in `Alphabet`. */
  function DigitOf(c: char): (k: nat)
    requires InAlphabet(c)
    ensures k < 36 && Letter(k) == c
  {
    if c == '0' then 9
    else if c <= '9' then c as int - '1' as int
    else c as int - 'a' as int + 10
  }

  /** What the generator can produce: `Length` characters from `Alphabet`. */
  predicate IsSlug(s: string)
  {
    |s| == Length && forall i :: 0 <= i < |s| ==> InAlphabet(s[i])
  }

  /** `n` characters drawn from `Alphabet`, the last one chosen by `seed % 36`. */
  function Draw(seed: nat, n: nat): (s: string)
    ensures |s| == n
    ensures forall i :: 0 <= i < |s| ==> InAlphabet(s[i])
  {
    if n == 0 then []
    else Draw(seed / 36, n - 1) + [Letter(seed % 36)]
  }

  /** One call of the generator. */
  function Nanoid(seed: nat): (s: string)
    ensures IsSlug(s)
  {
    Draw(seed, Length)
  }

  /** Every character the generator draws is a character of `Alphabet`. */
  lemma DrawsFromAlphabet(seed: nat, n: nat)
    ensures forall i :: 0 <= i < n ==> Draw(seed, n)[i] in Alphabet
  {
    forall i | 0 <= i < n
      ensures Draw(seed, n)[i] in Alphabet
    {
      LetterIsAlphabet(DigitOf(Draw(seed, n)[i]));
    }
  }

  /** The draw that spells `s`: its characters read as base-36 digits. */
  function SeedOf(s: string): nat
    requires forall i :: 0 <= i < |s| ==> InAlphabet(s[i])
  {
    if s == [] then 0
    else SeedOf(s[..|s| - 1]) * 36 + DigitOf(s[|s| - 1])
  }

  /** Drawing from a seed with one more base-36 digit `k` appends the
      character that digit names. */
  lemma DrawDigit(q: nat, k: nat, n: nat)
    requires k < 36
    ensures Draw(q * 36 + k, n + 1) == Draw(q, n) + [Letter(k)]
  {
    assert (q * 36 + k) / 36 == q && (q * 36 + k) % 36 == k;
  }

  lemma {:induction false} DrawSeedOf(s: string)
    requires forall i :: 0 <= i < |s| ==> InAlphabet(s[i])
    ensures Draw(SeedOf(s), |s|) == s
  {
    if s != [] {
      var p := s[..|s| - 1];
      DrawDigit(SeedOf(p), DigitOf(s[|s| - 1]), |p|);
      DrawSeedOf(p);
      SplitLast(s);
    }
  }

  /** Every string the generator's contract allows is produced by some draw,
      so the model does not constrain the generator beyond that contract. */
  lemma EverySlugIsDrawn(s: string)
    requires IsSlug(s)
    ensures Nanoid(SeedOf(s)) == s
  {
    DrawSeedOf(s);
  }
}

=== FILE: store.dfy ===
/** The two tables behind the url-list code, `url_lists` and `urls`, as an
    immutable value, together with the constraints the schema enforces and
    the per-list position statement of `addUrlToList`. */
module Store {
  import opened Js
  import opened Seqs

  /** A row of `url_lists`. `createdAt` stands for the `created_at`
      timestamp; only its order is observable. */
  datatype ListRow = ListRow(id: int, customUrl: string, createdAt: int)

  /** A row of `urls`. `updatedAt` stands for the `updated_at` timestamp. */
  datatype UrlRow = UrlRow(
    id: int,
    listId: int,
    url: string,
    title: Option<string>,
    description: Option<string>,
    position: int,
    updatedAt: int)

  /** The database: both tables in physical order, the next values of the two
      id sequences, and the clock that stamps `created_at`/`updated_at`. */
  datatype Db = Db(lists: seq<ListRow>, urls: seq<UrlRow>, nextListId: int, nextUrlId: int, clock: int)

  /** The freshly initialised schema. */
  const Empty: Db := Db([], [], 1, 1, 0)

  /** Why a statement raised: the database was unreachable or rejected the
      query, or an insert broke the unique slug or the list foreign key. */
  datatype DbError = QueryFailed | UniqueViolation | ForeignKeyViolation

  datatype Result<+T> = Ok(value: T) | Err(error: DbError)

  /** What a call into the store yields: its result and the store afterwards. */
  datatype Exec<+T> = Exec(result: Result<T>, db: Db)

  /** Rows of `url_lists` are identified by id, slug and creation stamp, all
      issued by the store. */
  predicate ListsValid(db: Db)
  {
    && (forall i :: 0 <= i < |db.lists| ==>
          1 <= db.lists[i].id < db.nextListId && db.lists[i].createdAt < db.clock)
    && (forall i, j :: 0 <= i < j < |db.lists| ==>
          && db.lists[i].id != db.lists[j].id
          && db.lists[i].customUrl != db.lists[j].customUrl
          && db.lists[i].createdAt != db.lists[j].createdAt)
  }

  /** Rows of `urls` have store-issued ids, non-negative positions, a list id
      that was issued at some point, and positions distinct within a list. */
  predicate UrlsValid(db: Db)
  {
    && (forall i :: 0 <= i < |db.urls| ==>
          1 <= db.urls[i].id < db.nextUrlId && 0 <= db.urls[i].position && db.urls[i].listId < db.nextListId)
    && (forall i, j :: 0 <= i < j < |db.urls| ==>
          && db.urls[i].id != db.urls[j].id
          && (db.urls[i].listId == db.urls[j].listId ==> db.urls[i].position != db.urls[j].position))
  }

  /** Every URL row points at a stored list: the `urls.list_id` foreign key. */
  predicate Linked(db: Db)
  {
    forall j :: 0 <= j < |db.urls| ==> HasList(db, db.urls[j].listId)
  }

  /** The invariant every operation of the url-list code preserves. */
  predicate Valid(db: Db)
  {
    1 <= db.nextListId && 1 <= db.nextUrlId && 0 <= db.clock && ListsValid(db) && UrlsValid(db) && Linked(db)
  }

  lemma EmptyIsValid()
    ensures Valid(Empty)
    ensures Empty.lists == [] && Empty.urls == []
  {
  }

  // Keys and tests used by the statements' WHERE and ORDER BY clauses.

  function Position(u: UrlRow): int { u.position }

  /** `ORDER BY created_at DESC` as an ascending key. */
  function NewestFirst(l: ListRow): int { -l.createdAt }

  function InList(listId: int): UrlRow -> bool
  {
    (u: UrlRow) => u.listId == listId
  }

  function Named(customUrl: string): ListRow -> bool
  {
    (l: ListRow) => l.customUrl == customUrl
  }

  function NotUrl(urlId: int): UrlRow -> bool
  {
    (u: UrlRow) => u.id != urlId
  }

  function NotNamed(customUrl: string): ListRow -> bool
  {
    (l: ListRow) => l.customUrl != customUrl
  }

  /** A table of lists drawn from a valid one, without repetition, is valid. */
  lemma ListsValidSub(db: Db, ls: seq<ListRow>)
    requires ListsValid(db)
    requires Distinct(ls)
    requires forall l :: l in ls ==> l in db.lists
    ensures ListsValid(db.(lists := ls))
  {
    forall i | 0 <= i < |ls|
      ensures 1 <= ls[i].id < db.nextListId && ls[i].createdAt < db.clock
    {
      assert ls[i] in ls;
      var k :| 0 <= k < |db.lists| && db.lists[k] == ls[i];
    }
    forall i, j | 0 <= i < j < |ls|
      ensures ls[i].id != ls[j].id && ls[i].customUrl != ls[j].customUrl && ls[i].createdAt != ls[j].createdAt
    {
      assert ls[i] in ls && ls[j] in ls;
      var a :| 0 <= a < |db.lists| && db.lists[a] == ls[i];
      var b :| 0 <= b < |db.lists| && db.lists[b] == ls[j];
      assert a != b;
    }
  }

  /** A valid table of URLs stays valid with one more row that takes the
      next id and a position above every position of its list. */
  lemma UrlsValidAppend(db: Db, db2: Db, u: UrlRow)
    requires UrlsValid(db)
    requires db2.urls == db.urls + [u]
    requires db2.nextListId == db.nextListId && u.id == db.nextUrlId < db2.nextUrlId
    requires 1 <= u.id && 0 <= u.position && u.listId < db.nextListId
    requires forall i :: 0 <= i < |db.urls| && db.urls[i].listId == u.listId ==> db.urls[i].position < u.position
    ensures UrlsValid(db2)
  {
    forall i, j | 0 <= i < j < |db2.urls|
      ensures db2.urls[i].id != db2.urls[j].id
      ensures db2.urls[i].listId == db2.urls[j].listId ==> db2.urls[i].position != db2.urls[j].position
    {
      assert db2.urls[i] == db.urls[i];
    }
  }

  /** A table of URLs drawn from a valid one, without repetition, is valid. */
  lemma UrlsValidSub(db: Db, us: seq<UrlRow>)
    requires UrlsValid(db)
    requires Distinct(us)
    requires forall u :: u in us ==> u in db.urls
    ensures UrlsValid(db.(urls := us))
  {
    forall i | 0 <= i < |us|
      ensures 1 <= us[i].id < db.nextUrlId && 0 <= us[i].position && us[i].listId < db.nextListId
    {
      assert us[i] in us;
      var k :| 0 <= k < |db.urls| && db.urls[k] == us[i];
    }
    forall i, j | 0 <= i < j < |us|
      ensures us[i].id != us[j].id
      ensures us[i].listId == us[j].listId ==> us[i].position != us[j].position
    {
      assert us[i] in us && us[j] in us;
      var a :| 0 <= a < |db.urls| && db.urls[a] == us[i];
      var b :| 0 <= b < |db.urls| && db.urls[b] == us[j];
      assert a != b;
    }
  }

  /** Some list row carries this slug. */
  predicate HasSlug(db: Db, customUrl: string)
  {
    exists i :: 0 <= i < |db.lists| && db.lists[i].customUrl == customUrl
  }

  /** Some list row carries this id. */
  predicate HasList(db: Db, listId: int)
  {
    exists i :: 0 <= i < |db.lists| && db.lists[i].id == listId
  }

  /** Some URL row points at a list carrying this slug: the `urls.list_id`
      foreign key then refuses to let that list row go. */
  predicate Referenced(db: Db, customUrl: string)
  {
    exists i, j :: 0 <= i < |db.lists| && 0 <= j < |db.urls| &&
      db.lists[i].customUrl == customUrl && db.urls[j].listId == db.lists[i].id
  }

  /** Appending list rows keeps every URL row linked. */
  lemma LinkedMoreLists(db: Db, db2: Db)
    requires Linked(db)
    requires db2.urls == db.urls
    requires |db.lists| <= |db2.lists| && db2.lists[..|db.lists|] == db.lists
    ensures Linked(db2)
  {
    forall j | 0 <= j < |db2.urls|
      ensures HasList(db2, db2.urls[j].listId)
    {
      var k :| 0 <= k < |db.lists| && db.lists[k].id == db.urls[j].listId;
      assert db2.lists[k] == db.lists[k];
    }
  }

  /** Appending a URL row of a stored list keeps every URL row linked. */
  lemma LinkedMoreUrls(db: Db, db2: Db, u: UrlRow)
    requires Linked(db)
    requires db2.lists == db.lists && db2.urls == db.urls + [u]
    requires HasList(db, u.listId)
    ensures Linked(db2)
  {
    forall j | 0 <= j < |db2.urls|
      ensures HasList(db2, db2.urls[j].listId)
    {
      if j < |db.urls| {
        assert db2.urls[j] == db.urls[j];
      }
    }
  }

  /** `SELECT * FROM urls WHERE list_id = $1 ORDER BY position`. */
  function UrlsOfList(db: Db, listId: int): (r: seq<UrlRow>)
    ensures SortedBy(r, Position)
    ensures forall u :: u in r <==> u in db.urls && u.listId == listId
  {
    SortBy(Filter(db.urls, InList(listId)), Position)
  }

  /** Under `Valid`, a list's URLs come out in strictly ascending position. */
  lemma UrlsOfListStrictlySorted(db: Db, listId: int)
    requires Valid(db)
    ensures StrictlySortedBy(UrlsOfList(db, listId), Position)
  {
    var f := Filter(db.urls, InList(listId));
    var r := UrlsOfList(db, listId);
    assert r == SortBy(f, Position);
    assert Distinct(db.urls);
    FilterDistinct(db.urls, InList(listId));
    assert Distinct(f);
    assert multiset(r) == multiset(f);
    DistinctPermutation(r, f);
    forall i, j | 0 <= i < j < |r|
      ensures Position(r[i]) < Position(r[j])
    {
      assert r[i] in r && r[j] in r;
      assert r[i] != r[j];
      assert r[i].listId == listId && r[j].listId == listId;
      if r[i].position == r[j].position {
        SamePositionSameRow(db, r[i], r[j]);
      }
    }
  }

  /** Two rows of one list with equal positions are the same row. */
  lemma SamePositionSameRow(db: Db, u: UrlRow, v: UrlRow)
    requires Valid(db)
    requires u in db.urls && v in db.urls
    requires u.listId == v.listId && u.position == v.position
    ensures u == v
  {
    var a :| 0 <= a < |db.urls| && db.urls[a] == u;
    var b :| 0 <= b < |db.urls| && db.urls[b] == v;
    if a < b || b < a {
      assert false;
    }
  }

  /** SQL `MAX(position)` over some rows: NULL (None) when there are none. */
  function MaxPosition(rows: seq<UrlRow>): (m: Option<int>)
    ensures m.None? <==> rows == []
    ensures m.Some? ==> forall i :: 0 <= i < |rows| ==> rows[i].position <= m.value
    ensures m.Some? ==> exists i :: 0 <= i < |rows| && rows[i].position == m.value
  {
    if rows == [] then None
    else
      var last := rows[|rows| - 1];
      match MaxPosition(rows[..|rows| - 1])
      case None => Some(last.position)
      case Some(p) => Some(if last.position > p then last.position else p)
  }

  /** `MAX(position)` over one list, stated over the whole table. */
  lemma NextPositionFacts(db: Db, listId: int)
    ensures var m := MaxPosition(Filter(db.urls, InList(listId)));
      && (m.None? <==> forall i :: 0 <= i < |db.urls| ==> db.urls[i].listId != listId)
      && (m.Some? ==> forall i :: 0 <= i < |db.urls| && db.urls[i].listId == listId ==> db.urls[i].position <= m.value)
      && (m.Some? ==> exists i :: 0 <= i < |db.urls| && db.urls[i].listId == listId && db.urls[i].position == m.value)
  {
    var rows := Filter(db.urls, InList(listId));
    FilterIndices(db.urls, InList(listId));
    var m := MaxPosition(rows);
    if m.Some? {
      var k :| 0 <= k < |rows| && rows[k].position == m.value;
      assert rows[k] in rows;
      var i :| 0 <= i < |db.urls| && db.urls[i] == rows[k];
      assert db.urls[i].listId == listId;
      forall i | 0 <= i < |db.urls| && db.urls[i].listId == listId
        ensures db.urls[i].position <= m.value
      {
        assert db.urls[i] in rows;
        var k :| 0 <= k < |rows| && rows[k] == db.urls[i];
      }
    } else {
      assert rows == [];
      forall i | 0 <= i < |db.urls|
        ensures db.urls[i].listId != listId
      {
        assert !(db.urls[i] in rows);
      }
    }
  }

  /** `SELECT COALESCE(MAX(position), -1) + 1 FROM urls WHERE list_id = $1`:
      0 for a list without URLs, otherwise one more than the largest
      position, hence above every position already in the list. */
  function NextPosition(db: Db, listId: int): (p: int)
    ensures forall i :: 0 <= i < |db.urls| && db.urls[i].listId == listId ==> db.urls[i].position < p
    ensures (forall i :: 0 <= i < |db.urls| ==> db.urls[i].listId != listId) ==> p == 0
    ensures (exists i :: 0 <= i < |db.urls| && db.urls[i].listId == listId) ==>
              exists i :: 0 <= i < |db.urls| && db.urls[i].listId == listId && db.urls[i].position == p - 1
  {
    NextPositionFacts(db, listId);
    (match MaxPosition(Filter(db.urls, InList(listId))) case None => -1 case Some(v) => v) + 1
  }
}
